=== FILE: README.md ===
# Broadcast: a Dafny model of the bulk-sender core

Broadcast is an Android app that sends one message, optionally with one media
attachment, to every member of a saved broadcast list through WhatsApp. The
helper takes a single attachment (`mediaUri: Uri?`), although its callers in
MainActivity pass a list of URIs; the model follows the helper. This
project models its core as pure Dafny functions and proves properties about them.
The core has four parts:

- **Recipient preparation** (`WhatsAppHelper`, module `Phone`). Raw phone
  numbers are normalised to `+<country><number>`, with the Indian `+91`
  rules. Numbers without a `+` are dropped, duplicates are removed keeping
  first occurrences, and the send queue starts only past the permission and
  emptiness guards.
- **The send queue** (`WhatsAppAccessibilityService`, modules `Service` and
  `Nodes`). The service's fields form a `State` record. Every framework
  callback is an `Event`, and everything the service does to the outside
  world is an `Effect`. The send-button search walks an accessibility node
  tree: view-id matches first, then text matches, then a pre-order scan
  comparing content descriptions without regard to case.
- **Storage** (`BroadcastDao`, `BroadcastRepository`, modules `Store` and
  `Repository`). The Room tables are maps and sets: lists keyed by an
  AUTOINCREMENT id, contacts keyed by phone number, and cross references
  keyed by the (list, phone) pair. Every insert replaces on conflict.
- **Screens' logic** (`CreateEditListViewModel`, `ContactPickerScreen`,
  modules `CreateEdit` and `Picker`). This covers saving a new or edited
  list, and the picker's search filter, its selected-first ordering, its
  selection toggle and its Done button.

`Common` holds the shared vocabulary:
- Kotlin's nullable values as `Option`;
- order-preserving `Filter`;
- `Distinct`, which is `toSet().toList()` on an insertion-ordered set;
- substring search and ASCII case folding.

Behaviour worth knowing:

- **A start command while sending replaces the batch and can stall the
  service.** When the service is already processing, a complete send-bulk
  intent overwrites the queue and clears the current number, but nothing
  dispatches. From then on every accessibility event is ignored (lemma
  `Service.BusyStartSilencesEvents`). Only a `processNextMessage` that
  was already posted can move the queue again.
- **Unmatched numbers are dropped.** A number that does not have ten characters, does
  not start with `0` and has no `+` is left as it is, and then the
  `+` filter drops it.
- **Deleting a list leaves its cross references in place.** They stay
  orphaned. The AUTOINCREMENT counter never hands an id out twice, so a new
  list never inherits them (lemma `Store.FreshIdHasNoMembers`).
- **An explicit id adds to the old members.** `insertBroadcastListWithContacts`
  called with an explicit id deletes nothing first, so the list keeps any
  members it already had (contract of `Repository.InsertBroadcastListWithContacts`).

## Model

| member | source | states |
|---|---|---|
| Common.Distinct | app/src/main/java/com/fourseason/broadcast/util/WhatsAppHelper.kt:73-74 | The result holds every input value, only input values, and each value once. |
| Common.DistinctKeepsFirstOccurrenceOrder | app/src/main/java/com/fourseason/broadcast/util/WhatsAppHelper.kt:73-74 | The de-duplicated values are listed in the order of their first occurrence in the input. |
| Common.DistinctInOrder | app/src/main/java/com/fourseason/broadcast/util/WhatsAppHelper.kt:73-74 | A single scan with a seen-set computes the same first-occurrence list. |
| Phone.Strip | app/src/main/java/com/fourseason/broadcast/util/WhatsAppHelper.kt:18 | The result contains no whitespace or hyphen. |
| Phone.IsSeparator | app/src/main/java/com/fourseason/broadcast/util/WhatsAppHelper.kt:18 | A separator is never `+` and never a digit, so stripping keeps every character that decides the number's form. |
| Phone.StripRemovesExactlySeparators | app/src/main/java/com/fourseason/broadcast/util/WhatsAppHelper.kt:18 | Separators occur 0 times in the result. Every other character occurs exactly as often as in the input. |
| Phone.StripAppend | app/src/main/java/com/fourseason/broadcast/util/WhatsAppHelper.kt:18 | Stripping works piecewise over concatenation, so the surviving characters keep their order. |
| Phone.Normalize | app/src/main/java/com/fourseason/broadcast/util/WhatsAppHelper.kt:16-32 | Separators are gone. A `+` number is kept. Ten characters not starting with `0` get `+91` prepended. A leading `0` is replaced by `+91`. Anything left without `+` is the stripped input unchanged. |
| Phone.NormalizeInternationalIff | app/src/main/java/com/fourseason/broadcast/util/WhatsAppHelper.kt:21-26 | The result starts with `+` exactly when the stripped number had `+`, started with `0`, or had ten characters. |
| Phone.NormalizeIdempotent | app/src/main/java/com/fourseason/broadcast/util/WhatsAppHelper.kt:16-32 | Normalising an already normalised number changes nothing. |
| Phone.NormalizeAll | app/src/main/java/com/fourseason/broadcast/util/WhatsAppHelper.kt:71 | Each input number is normalised in place: same length, and position i holds the normalisation of input i. |
| Phone.Recipients | app/src/main/java/com/fourseason/broadcast/util/WhatsAppHelper.kt:70-74 | The recipients are duplicate-free, each starts with `+` and is a normalised input, and every normalised input that starts with `+` is among them. |
| Phone.SendMessage | app/src/main/java/com/fourseason/broadcast/util/WhatsAppHelper.kt:59-87 | These outcomes are iffs: a disabled service leads to the permission request; an empty list leads to "no contacts"; no international number leads to "no valid contacts". Otherwise the queue starts with the message and media unchanged and a non-empty, duplicate-free list. Every number in it is international and comes from the input, and every international normalised input is in it. |
| Phone.RecipientsComeFromInput | app/src/main/java/com/fourseason/broadcast/util/WhatsAppHelper.kt:70-74 | Every recipient starts with `+` and is the normalisation of some input number. |
| Phone.RecipientsCoverInput | app/src/main/java/com/fourseason/broadcast/util/WhatsAppHelper.kt:70-74 | Every input whose normalisation starts with `+` is a recipient. |
| Phone.RecipientsEmptyIff | app/src/main/java/com/fourseason/broadcast/util/WhatsAppHelper.kt:76-79 | The recipient list is empty exactly when no input normalises to a `+` number. |
| Phone.StartedNumbersAreNormalized | app/src/main/java/com/fourseason/broadcast/util/WhatsAppHelper.kt:70-87 | Every queued number is a fixed point of normalisation. |
| Phone.SendMessageKeepsFirstOccurrenceOrder | app/src/main/java/com/fourseason/broadcast/util/WhatsAppHelper.kt:70-74 | Queued numbers appear in the order their first source occurs among the normalised inputs. |
| Nodes.PreOrder | app/src/main/java/com/fourseason/broadcast/service/WhatsAppAccessibilityService.kt:253-259 | The collection starts with the root. |
| Nodes.PreOrderLength | app/src/main/java/com/fourseason/broadcast/service/WhatsAppAccessibilityService.kt:253-259 | The collection has exactly as many entries as the tree has nodes, so each node is collected once. |
| Nodes.PreOrderMembers | app/src/main/java/com/fourseason/broadcast/service/WhatsAppAccessibilityService.kt:253-259 | A node is collected exactly when it is the root or lies under a non-null child slot. |
| Nodes.CollectNodes | app/src/main/java/com/fourseason/broadcast/service/WhatsAppAccessibilityService.kt:253-259 | The recursive collection appends the pre-order of the node to the list so far. A null node appends nothing. |
| Nodes.DescriptionMatches | app/src/main/java/com/fourseason/broadcast/service/WhatsAppAccessibilityService.kt:235 | A node matches an option only if it has a content description of the option's length, and a description equal to the option always matches. |
| Nodes.ClickRun | app/src/main/java/com/fourseason/broadcast/service/WhatsAppAccessibilityService.kt:198-250 | At most one click is attempted per candidate, and a reported success has at least one attempt behind it. |
| Nodes.ClickRunSound | app/src/main/java/com/fourseason/broadcast/service/WhatsAppAccessibilityService.kt:198-250 | Only clickable and enabled candidates are clicked. Success is reported exactly when some such candidate accepts the click. On success that click is the last one, and every earlier click failed. |
| Nodes.ClickRunStopsAtFirstSuccess | app/src/main/java/com/fourseason/broadcast/service/WhatsAppAccessibilityService.kt:198-250 | When candidate k is the first eligible one whose click succeeds, the search clicks exactly the eligible candidates up to and including k, in order, failed ones included, and reports success. |
| Nodes.ClickRunWithoutSuccess | app/src/main/java/com/fourseason/broadcast/service/WhatsAppAccessibilityService.kt:198-250 | When no eligible candidate accepts the click, the search clicks every eligible candidate, in order, and reports failure. |
| Nodes.ClickRunAppend | app/src/main/java/com/fourseason/broadcast/service/WhatsAppAccessibilityService.kt:198-250 | The search over two candidate runs stops in the first run on success. Otherwise it continues into the second and accumulates the attempts. |
| Nodes.SearchPhaseOrder | app/src/main/java/com/fourseason/broadcast/service/WhatsAppAccessibilityService.kt:198-244 | A successful id-phase click ends the search there. Text matches are tried only after every id attempt failed. The description scan comes last. |
| Nodes.DescriptionOptionsOverlap | app/src/main/java/com/fourseason/broadcast/service/WhatsAppAccessibilityService.kt:233-235 | The options "Send" and "send" select the same nodes under case-insensitive comparison. |
| Nodes.FindAndClickSendButton | app/src/main/java/com/fourseason/broadcast/service/WhatsAppAccessibilityService.kt:198-250 | The nested loops compute the reference search. A success ends on an eligible node that accepted the click. Every click went to an eligible node of the searched tree. |
| Nodes.TryGroups | app/src/main/java/com/fourseason/broadcast/service/WhatsAppAccessibilityService.kt:200-227 | Walking the option groups with an early return equals the reference search over their concatenation. |
| Service.Step | app/src/main/java/com/fourseason/broadcast/service/WhatsAppAccessibilityService.kt:52-319 | An accessibility event changes no state and launches nothing. Only a start command changes the message or media. Interrupt and destroy act exactly as `onInterrupt` and `onDestroy`. A self-stop leaves the service idle with an empty queue. |
| Service.InitialIgnoresEvents | app/src/main/java/com/fourseason/broadcast/service/WhatsAppAccessibilityService.kt:165-168 | A freshly created service, with nothing processing and no current number, ignores every accessibility event. |
| Service.StopSelfIfIdle | app/src/main/java/com/fourseason/broadcast/service/WhatsAppAccessibilityService.kt:307-312 | The service stops itself exactly when it is not processing and its queue is empty. |
| Service.ProcessNextMessage | app/src/main/java/com/fourseason/broadcast/service/WhatsAppAccessibilityService.kt:88-163 | With an empty queue: stop processing, clear the current number, and stop self. Otherwise: dequeue the head as current and launch it with the stored message (or empty text) and media. A second `processNextMessage` is posted after 2000 ms exactly when the launch fails. |
| Service.OnStartCommand | app/src/main/java/com/fourseason/broadcast/service/WhatsAppAccessibilityService.kt:52-86 | Only a send-bulk action is handled. An incomplete intent only stops an idle service. A complete intent replaces the queue, message and media. A busy service dispatches nothing and forgets the current number. An idle service given numbers emits exactly the launch of the first number with the intent's message and media, followed by a `processNextMessage` posted after 2000 ms exactly when that launch fails. An idle service given an empty list emits only the self-stop. |
| Service.OnAccessibilityEvent | app/src/main/java/com/fourseason/broadcast/service/WhatsAppAccessibilityService.kt:166-196 | The state never changes and nothing is launched. Unless all guards pass, nothing happens. Otherwise the effects are the search's clicks in order, followed by one delayed `processNextMessage` exactly when a click succeeded. |
| Service.InterruptKeepsQueue | app/src/main/java/com/fourseason/broadcast/service/WhatsAppAccessibilityService.kt:285-289 | Interrupt yields the old state with only the processing flag cleared, and no effects. The queue, current number, message and media survive. |
| Service.DestroyClearsQueue | app/src/main/java/com/fourseason/broadcast/service/WhatsAppAccessibilityService.kt:314-319 | Destroy yields the old state with the processing flag and queue cleared, and no effects. The current number, message and media survive. |
| Service.StopSelfOnlyWhenIdle | app/src/main/java/com/fourseason/broadcast/service/WhatsAppAccessibilityService.kt:307-312 | No callback stops the service unless it is left idle with an empty queue. |
| Service.StepConsumesInOrder | app/src/main/java/com/fourseason/broadcast/service/WhatsAppAccessibilityService.kt:88-98 | Any callback other than a start command launches at most the queue head, and the launched numbers plus the remaining queue are a prefix of the old queue. |
| Service.RunConsumesInOrder | app/src/main/java/com/fourseason/broadcast/service/WhatsAppAccessibilityService.kt:88-98 | Between start commands, numbers are launched in queue order, each queue position at most once, and none is put back. A number that occurs twice in the queue is launched twice. |
| Service.StartOnIdleLaunchesHead | app/src/main/java/com/fourseason/broadcast/service/WhatsAppAccessibilityService.kt:59-71 | A send-bulk start on an idle service launches the first number, queues the rest, and starts processing. |
| Service.BusyStartSilencesEvents | app/src/main/java/com/fourseason/broadcast/service/WhatsAppAccessibilityService.kt:59-75 | After a start command that arrives while processing, every later accessibility event does nothing. |
| Service.SendMessageStartsIdleService | app/src/main/java/com/fourseason/broadcast/util/WhatsAppHelper.kt:82-87 | The first recipient `sendMessage` produces is the first number an idle service launches. The other recipients are queued in order. |
| Store.ContactsOf | app/src/main/java/com/fourseason/broadcast/data/BroadcastListWithContacts.kt:9-14 | A contact belongs to a list exactly when it is the stored row of a phone that has a cross reference to the list, joining the junction on `listId` and `contactPhoneNumber`. |
| Store.GetBroadcastListWithContacts | app/src/main/java/com/fourseason/broadcast/data/BroadcastDao.kt:39-41 | A list is found exactly when its id is stored. It carries the stored row. Its contacts are exactly the stored contacts whose phone is a member. |
| Store.GetAllBroadcastListsWithContacts | app/src/main/java/com/fourseason/broadcast/data/BroadcastDao.kt:31-37 | Every stored list appears once with its contacts, and nothing else appears. |
| Store.InsertBroadcastList | app/src/main/java/com/fourseason/broadcast/data/BroadcastDao.kt:13-14 | Id 0 gets a fresh id above every issued id. An explicit id is kept. The row is stored under the returned id, and other rows and tables are unchanged. |
| Store.InsertContact | app/src/main/java/com/fourseason/broadcast/data/BroadcastDao.kt:16-17 | The contact is stored under its phone, replacing any earlier one. The other contacts are unchanged. |
| Store.InsertContacts | app/src/main/java/com/fourseason/broadcast/data/BroadcastDao.kt:19-20 | Every given phone is stored with the last contact carrying it. The other contacts are unchanged. |
| Store.InsertCrossRef | app/src/main/java/com/fourseason/broadcast/data/BroadcastDao.kt:22-23 | The pair is added to the junction set. |
| Store.InsertCrossRefs | app/src/main/java/com/fourseason/broadcast/data/BroadcastDao.kt:25-26 | The junction holds exactly the old pairs and the given ones. |
| Store.InsertCrossRefIdempotent | app/src/main/java/com/fourseason/broadcast/data/BroadcastListContactCrossRef.kt:5-12 | Re-inserting an existing pair changes nothing. |
| Store.UpdateBroadcastList | app/src/main/java/com/fourseason/broadcast/data/BroadcastDao.kt:28-29 | An existing row is rewritten. An unknown id leaves the database unchanged. |
| Store.DeleteBroadcastListById | app/src/main/java/com/fourseason/broadcast/data/BroadcastDao.kt:43-44 | Only that row is removed. Contacts and cross references stay. |
| Store.DeleteCrossRefsByListId | app/src/main/java/com/fourseason/broadcast/data/BroadcastDao.kt:46-47 | Exactly the pairs of that list are removed. |
| Store.ClearAllBroadcastLists | app/src/main/java/com/fourseason/broadcast/data/BroadcastDao.kt:58-59 | The list table is emptied and the other tables are unchanged. |
| Store.ClearAllContacts | app/src/main/java/com/fourseason/broadcast/data/BroadcastDao.kt:61-62 | The contact table is emptied and the other tables are unchanged. |
| Store.ClearAllBroadcastListContactCrossRefs | app/src/main/java/com/fourseason/broadcast/data/BroadcastDao.kt:64-65 | The junction is emptied and the other tables are unchanged. |
| Store.RefsFor | app/src/main/java/com/fourseason/broadcast/data/BroadcastDao.kt:54 | One cross reference per given contact, in order, pairing the list with that contact's phone. |
| Store.RefsForMembers | app/src/main/java/com/fourseason/broadcast/data/BroadcastDao.kt:54 | The mapped cross references are exactly the pairs of the list with a given phone. |
| Store.ReplaceRefs | app/src/main/java/com/fourseason/broadcast/data/BroadcastDao.kt:53-55 | Deleting and re-inserting leaves one pair per distinct phone for the list. Every other list's pairs are unchanged. |
| Store.UpdateBroadcastListWithContacts | app/src/main/java/com/fourseason/broadcast/data/BroadcastDao.kt:49-56 | The members become exactly the given phones, with one pair each. Other lists' pairs are unchanged. The row carries the new fields. Contacts are upserted. |
| Store.ClearsPreserveWf | app/src/main/java/com/fourseason/broadcast/data/BroadcastDao.kt:58-65 | Clearing keeps every row under its own key. |
| Store.InsertThenGet | app/src/test/java/com/fourseason/broadcast/data/BroadcastDaoTest.kt:40-45 | A list inserted with id 0 gets an unused id and is found under it with its name, its emoji and no contacts. |
| Store.ContactUpsert | app/src/main/java/com/fourseason/broadcast/data/Contact.kt:8-9 | Two inserts with the same phone leave only the later contact. |
| Store.DeleteThenQuery | app/src/test/java/com/fourseason/broadcast/data/BroadcastDaoTest.kt:71-79 | After a delete the list is absent from both queries. Other lists read back unchanged. Its cross references remain. |
| Store.FreshIdHasNoMembers | app/src/main/java/com/fourseason/broadcast/data/BroadcastList.kt:8-9 | The next AUTOINCREMENT id has no cross references. |
| Store.TwoContactExample | app/src/test/java/com/fourseason/broadcast/data/BroadcastDaoTest.kt:49-67 | A new list joined to two contacts with distinct phones reads back with exactly those two contacts. |
| Repository.GetAllBroadcastListsWithContacts | app/src/main/java/com/fourseason/broadcast/data/BroadcastRepository.kt:7-9 | It returns exactly the DAO query: a pair of a row and contacts is returned exactly when the row is stored and the contacts are its members' stored rows. |
| Repository.GetBroadcastListWithContacts | app/src/main/java/com/fourseason/broadcast/data/BroadcastRepository.kt:11-13 | It returns exactly the DAO query. A list is found exactly when stored, with its row. On a well-formed database a contact is returned exactly when it is the stored row of a member phone. |
| Repository.InsertBroadcastListWithContacts | app/src/main/java/com/fourseason/broadcast/data/BroadcastRepository.kt:15-20 | The row is stored under the returned id. The list gains exactly the given phones as members, one pair each. Every other list's pairs and rows are untouched. Every given phone is stored with the last given contact carrying it, and other contacts keep their rows. A new list takes the next AUTOINCREMENT id; an explicit id raises the counter to at least that id. |
| Repository.AddRefs | app/src/main/java/com/fourseason/broadcast/data/BroadcastRepository.kt:18-19 | The mapped cross references add one pair per distinct phone, under the new id only. |
| Repository.InsertNewListHasExactlyItsContacts | app/src/main/java/com/fourseason/broadcast/data/BroadcastRepository.kt:15-20 | A new list (id 0) has exactly the given phones as members, one pair per distinct phone. |
| Repository.UpdateBroadcastListWithContacts | app/src/main/java/com/fourseason/broadcast/data/BroadcastRepository.kt:22-24 | It is exactly the DAO transaction. Members become the given phones, one pair each. Other lists' pairs are untouched. An existing row is replaced and an unknown id adds no row. Every given phone is stored with the last contact carrying it, other contacts are kept, and the id counter does not move. |
| Repository.UpdateIdempotentMembers | app/src/main/java/com/fourseason/broadcast/data/BroadcastRepository.kt:22-24 | Repeating the same update changes neither members nor rows. |
| CreateEdit.LoadListDetails | app/src/main/java/com/fourseason/broadcast/ui/createedit/CreateEditListViewModel.kt:19-23 | The details are the stored row, or null for an unknown id. The database is untouched. |
| CreateEdit.SaveList | app/src/main/java/com/fourseason/broadcast/ui/createedit/CreateEditListViewModel.kt:26-43 | With no id, a new row with the name and emoji is created and the given phones become members, exactly so on a well-formed database. With a stored id, the row keeps its id, takes the new name and emoji, and its members become the given phones. An unknown id leaves the database unchanged. When a list is created, every other list's row and pairs are untouched. When anything is saved, every chosen phone is stored with the last chosen contact carrying it, and other contacts keep their rows. The details are null afterwards. |
| CreateEdit.SaveThenLoad | app/src/main/java/com/fourseason/broadcast/ui/createedit/CreateEditListViewModel.kt:31-36 | Loading an edited list shows the new name and emoji under the same id. |
| CreateEdit.CreateThenLoad | app/src/main/java/com/fourseason/broadcast/ui/createedit/CreateEditListViewModel.kt:28-30 | Loading a created list by its new id shows the saved name and emoji. |
| Picker.Filtered | app/src/main/java/com/fourseason/broadcast/ui/contactpicker/ContactPickerScreen.kt:107-109 | The filter keeps only contacts of the list that match the query, keeps every one that does, and never grows the list. |
| Picker.Shown | app/src/main/java/com/fourseason/broadcast/ui/contactpicker/ContactPickerScreen.kt:107-110 | Every listed contact comes from the list and matches the query. |
| Picker.ShownIff | app/src/main/java/com/fourseason/broadcast/ui/contactpicker/ContactPickerScreen.kt:107-109 | A contact is listed exactly when it matches: its name contains the query ignoring case, or its phone contains the query. |
| Picker.EmptyQueryShowsAll | app/src/main/java/com/fourseason/broadcast/ui/contactpicker/ContactPickerScreen.kt:107-109 | The empty query keeps every contact, in order. |
| Picker.ShownIsPermutation | app/src/main/java/com/fourseason/broadcast/ui/contactpicker/ContactPickerScreen.kt:107-110 | Every contact is shown exactly as many times as the filter yields it, so sorting only reorders. |
| Picker.SelectedFirst | app/src/main/java/com/fourseason/broadcast/ui/contactpicker/ContactPickerScreen.kt:110 | Every shown selected contact precedes every shown unselected one. |
| Picker.ShownIsStable | app/src/main/java/com/fourseason/broadcast/ui/contactpicker/ContactPickerScreen.kt:110 | Within the selected group and within the unselected group, contacts keep their filtered order. |
| Picker.Toggle | app/src/main/java/com/fourseason/broadcast/ui/contactpicker/ContactPickerScreen.kt:116-122 | The tapped contact flips membership and no other contact changes. The selection stays free of repeats. |
| Picker.ToggleTwice | app/src/main/java/com/fourseason/broadcast/ui/contactpicker/ContactPickerScreen.kt:116-122 | Toggling twice restores the selected set, and restores the exact sequence when the contact was absent. |
| Picker.ToggleSize | app/src/main/java/com/fourseason/broadcast/ui/contactpicker/ContactPickerScreen.kt:116-122 | A toggle changes the selection size by exactly one. |
| Picker.ApplyPreselection | app/src/main/java/com/fourseason/broadcast/ui/contactpicker/ContactPickerScreen.kt:71-75 | In edit mode a non-empty pre-selection replaces the selection. Otherwise the selection stays. |
| Picker.DoneEnabled | app/src/main/java/com/fourseason/broadcast/ui/contactpicker/ContactPickerScreen.kt:88 | Done is enabled exactly when some contact is selected. |
| Picker.PressDone | app/src/main/java/com/fourseason/broadcast/ui/contactpicker/ContactPickerScreen.kt:82-90 | Done reports something exactly when the selection is non-empty, and then it reports the selection itself, in selection order, each contact once. |
| Picker.PreselectionEnablesDone | app/src/main/java/com/fourseason/broadcast/ui/contactpicker/ContactPickerScreen.kt:71-75 | Editing a list with stored members leaves Done enabled. |

## Left out

- **Android I/O.** Intents, `startActivity`, building the `whatsapp://send` URI, `Uri.encode`, MIME lookup, Toasts, logging and `Handler.postDelayed` are not modelled. Each launch, click, delayed step and self-stop is an `Effect`. Whether `startActivity` throws is the `launchSucceeds` input.
- **Where the launch goes.** The model records the number, text and media of a launch, not which intent (`ACTION_SEND` with media, `ACTION_VIEW` without) carries them.
- **Accessibility lookups.** Android's matching rules for `findAccessibilityNodeInfosByViewId` and `findAccessibilityNodeInfosByText` are not visible. They are predicates supplied in `Nodes.Lookup`, assumed to return matches in pre-order.
- **Node recycling** is not modelled. `performAction`'s result is the node's `clickSucceeds` field, fixed for the duration of one search.
- **Unused or configuration-only code.** `onServiceConnected` only configures the service. `clickByCoordinates` is unused gesture code.
- **The accessibility-settings query.** `isAccessibilityServiceEnabled` is a system-service query, taken as a boolean. `requestAccessibilityPermission` is the `PermissionRequested` outcome.
- **Concurrency.** Coroutines, Flow emission and main-looper scheduling are modelled as a serial sequence of steps. Each `viewModelScope.launch` runs to completion. `insertBroadcastListWithContacts` is not a transaction, and its interleavings are not modelled.
- **Row order in query results.** The order is unspecified by the queries, so results are sets.
- Phone.Normalize: the separators are the ASCII whitespace characters of the JVM's `\s` and `-`. Android's ICU regex engine also treats Unicode space separators such as U+00A0 as `\s`; those are kept here. The ten-character test counts Unicode scalar values, while Kotlin's `length` counts UTF-16 code units, so the two differ for characters outside the Basic Multilingual Plane.
- Picker.ShownIff: case-insensitive matching of names folds ASCII letters only. Kotlin folds all of Unicode.
- Nodes.FindAndClickSendButton: the case-insensitive comparison of content descriptions folds ASCII letters only.
- **Id width.** Ids are unbounded integers, so 64-bit overflow of Room ids is not modelled.
- Store.ContactsOf: the join assumes the junction columns are `listId` and `contactPhoneNumber`. The `Junction(BroadcastListContactCrossRef::class)` in BroadcastListWithContacts.kt names no `parentColumn` or `entityColumn`, so Room falls back to the relation's own columns `id` and `phoneNumber`, which the cross-reference entity does not have. Room's annotation processor rejects that at build time, so no running behaviour differs from the intended join, and the model gives the intended one: `Junction(BroadcastListContactCrossRef::class, parentColumn = "listId", entityColumn = "contactPhoneNumber")`.
- Store.GetBroadcastListWithContacts: Room's Flow for a missing row is modelled as an absent value, which is what `firstOrNull()` and `?.` in the callers handle.
- Repository.GetAllBroadcastListsWithContacts: the source declares a Flow but calls the suspending list query. The model returns the current rows.
- **Files outside the core.** MainActivity (navigation, permission dialogs, JSON backup and import), ContactPickerViewModel (reading the contacts cursor), ViewModelFactory, BroadcastListViewModel, ComposeMessageViewModel and the build files are not part of this model. The `distinct` flattening in MainActivity that calls `sendMessage` is taken as the caller's input.
- **Composable layout** is not modelled: the button label `Done (n)`, the title and the permission text.

=== FILE: common.dfy ===
/**
 Small shared vocabulary: an optional value, order-preserving filtering and
 de-duplication of sequences, and the few string predicates (prefix,
 substring, ASCII case folding) that the Kotlin standard library provides to
 the application.
 */
module Common {

  /** Kotlin's nullable values. */
  datatype Option<+T> = None | Some(value: T) {
    function GetOr(default: T): T {
      match this
      case Some(v) => v
      case None => default
    }
  }

  /* ---------------------------------------------------------------------
     Sequences
     --------------------------------------------------------------------- */

  /** No element occurs twice. */
  predicate NoDup<T(==)>(s: seq<T>) {
    forall i, j :: 0 <= i < j < |s| ==> s[i] != s[j]
  }

  /** Keeps the elements satisfying `p`, in their original order (Kotlin `filter`). */
  function Filter<T>(s: seq<T>, p: T -> bool): (r: seq<T>)
    ensures |r| <= |s|
    ensures forall i :: 0 <= i < |r| ==> r[i] in s && p(r[i])
    ensures forall i :: 0 <= i < |s| && p(s[i]) ==> s[i] in r
    decreases |s|
  {
    if |s| == 0 then []
    else (if p(s[0]) then [s[0]] else []) + Filter(s[1..], p)
  }

  lemma {:induction false} FilterAppend<T>(a: seq<T>, b: seq<T>, p: T -> bool)
    ensures Filter(a + b, p) == Filter(a, p) + Filter(b, p)
    decreases |a|
  {
    if |a| == 0 {
      assert a + b == b;
    } else {
      assert (a + b)[1..] == a[1..] + b;
      FilterAppend(a[1..], b, p);
    }
  }

  /** Filtering keeps every occurrence of a kept value and drops every occurrence of the others. */
  lemma {:induction false} FilterCounts<T>(s: seq<T>, p: T -> bool, x: T)
    ensures multiset(Filter(s, p))[x] == if p(x) then multiset(s)[x] else 0
    decreases |s|
  {
    if |s| > 0 {
      FilterCounts(s[1..], p, x);
      assert s == [s[0]] + s[1..];
      assert multiset(s) == multiset{s[0]} + multiset(s[1..]);
    }
  }

  /** Filtering looks at the predicate only on the elements of the sequence. */
  lemma {:induction false} FilterSamePredicate<T>(s: seq<T>, p: T -> bool, q: T -> bool)
    requires forall i :: 0 <= i < |s| ==> p(s[i]) == q(s[i])
    ensures Filter(s, p) == Filter(s, q)
    decreases |s|
  {
    if |s| > 0 {
      FilterSamePredicate(s[1..], p, q);
    }
  }

  /** A filter that rejects nothing is the identity. */
  lemma {:induction false} FilterKeepsAll<T>(s: seq<T>, p: T -> bool)
    requires forall i :: 0 <= i < |s| ==> p(s[i])
    ensures Filter(s, p) == s
    decreases |s|
  {
    if |s| > 0 {
      FilterKeepsAll(s[1..], p);
    }
  }

  /** A filter that accepts nothing yields the empty sequence. */
  lemma {:induction false} FilterKeepsNone<T>(s: seq<T>, p: T -> bool)
    requires forall i :: 0 <= i < |s| ==> !p(s[i])
    ensures Filter(s, p) == []
    decreases |s|
  {
    if |s| > 0 {
      FilterKeepsNone(s[1..], p);
    }
  }

  /** Filtering a duplicate-free sequence keeps it duplicate-free. */
  lemma {:induction false} FilterNoDup<T>(s: seq<T>, p: T -> bool)
    requires NoDup(s)
    ensures NoDup(Filter(s, p))
    decreases |s|
  {
    if |s| > 0 {
      var rest := Filter(s[1..], p);
      FilterNoDup(s[1..], p);
      if p(s[0]) {
        assert s[0] !in s[1..];
        var f := [s[0]] + rest;
        forall i, j | 0 <= i < j < |f|
          ensures f[i] != f[j]
        {
          if i == 0 {
            assert f[j] == rest[j - 1];
          }
        }
      }
    }
  }

  /** Position of the first occurrence of `x`. */
  function FirstIndex<T(==)>(s: seq<T>, x: T): (k: nat)
    requires x in s
    ensures k < |s| && s[k] == x
    ensures forall i :: 0 <= i < k ==> s[i] != x
  {
    if s[0] == x then 0 else 1 + FirstIndex(s[1..], x)
  }

  lemma FirstIndexOfPrefix<T>(s: seq<T>, t: seq<T>, x: T)
    requires x in s
    ensures x in s + t && FirstIndex(s + t, x) == FirstIndex(s, x)
  {
    var k := FirstIndex(s, x);
    var k' := FirstIndex(s + t, x);
    assert (s + t)[k] == x;
    assert k' <= k;
    assert s[k'] == (s + t)[k'];
  }

  /** Filtering preserves the relative order of first occurrences. */
  lemma {:induction false} FilterKeepsFirstIndexOrder<T>(s: seq<T>, p: T -> bool, x: T, y: T)
    requires x in Filter(s, p) && y in Filter(s, p)
    requires FirstIndex(Filter(s, p), x) < FirstIndex(Filter(s, p), y)
    ensures x in s && y in s && FirstIndex(s, x) < FirstIndex(s, y)
    decreases |s|
  {
    var f := Filter(s, p);
    var rest := Filter(s[1..], p);
    assert f == (if p(s[0]) then [s[0]] else []) + rest;
    if p(s[0]) {
      if x != s[0] {
        assert y != s[0];
        assert f[1..] == rest;
        assert x in rest && y in rest;
        FilterKeepsFirstIndexOrder(s[1..], p, x, y);
      }
    } else {
      assert x != s[0] && y != s[0];
      assert f == rest;
      FilterKeepsFirstIndexOrder(s[1..], p, x, y);
    }
  }

  /**
   First occurrences, in order (the effect of Kotlin's `toSet().toList()`,
   whose set keeps insertion order).
   */
  function Distinct<T(==)>(s: seq<T>): (r: seq<T>)
    ensures forall i :: 0 <= i < |r| ==> r[i] in s
    ensures forall i :: 0 <= i < |s| ==> s[i] in r
    ensures NoDup(r)
    decreases |s|
  {
    if |s| == 0 then []
    else
      var d := Distinct(s[..|s| - 1]);
      var x := s[|s| - 1];
      assert s == s[..|s| - 1] + [x];
      if x in d then d else d + [x]
  }

  /** Distinct lists its values in the order of their first occurrence in the input. */
  lemma {:induction false} DistinctKeepsFirstOccurrenceOrder<T>(s: seq<T>)
    ensures forall i, j :: 0 <= i < j < |Distinct(s)| ==>
              FirstIndex(s, Distinct(s)[i]) < FirstIndex(s, Distinct(s)[j])
    decreases |s|
  {
    if |s| > 0 {
      var p := s[..|s| - 1];
      var x := s[|s| - 1];
      assert s == p + [x];
      DistinctKeepsFirstOccurrenceOrder(p);
      var d := Distinct(p);
      forall y | y in p
        ensures FirstIndex(s, y) == FirstIndex(p, y)
      {
        FirstIndexOfPrefix(p, [x], y);
      }
      if x !in d {
        assert FirstIndex(s, x) == |p| by {
          assert x !in p;
        }
      }
    }
  }

  /** De-duplicating a filtered sequence keeps exactly the accepted values. */
  lemma DistinctFilterMembers<T>(s: seq<T>, p: T -> bool)
    ensures forall k :: 0 <= k < |Distinct(Filter(s, p))| ==>
              p(Distinct(Filter(s, p))[k]) && Distinct(Filter(s, p))[k] in s
    ensures forall i :: 0 <= i < |s| && p(s[i]) ==> s[i] in Distinct(Filter(s, p))
  {
    var f := Filter(s, p);
    var d := Distinct(f);
    forall k | 0 <= k < |d|
      ensures p(d[k]) && d[k] in s
    {
      var j :| 0 <= j < |f| && f[j] == d[k];
    }
    forall i | 0 <= i < |s| && p(s[i])
      ensures s[i] in d
    {
      var j :| 0 <= j < |f| && f[j] == s[i];
    }
  }

  /** A hash-set scan that keeps the first occurrence of every value (LinkedHashSet semantics). */
  method DistinctInOrder<T(==)>(s: seq<T>) returns (r: seq<T>)
    ensures r == Distinct(s)
  {
    r := [];
    var seen: set<T> := {};
    for i := 0 to |s|
      invariant r == Distinct(s[..i])
      invariant forall x :: x in seen <==> x in r
    {
      assert s[..i + 1][..i] == s[..i];
      if s[i] !in seen {
        r := r + [s[i]];
        seen := seen + {s[i]};
      }
    }
    assert s[..|s|] == s;
  }

  /* ---------------------------------------------------------------------
     Strings
     --------------------------------------------------------------------- */

  /** Kotlin `s.startsWith(c.toString())`. */
  predicate StartsWithChar(s: string, c: char) {
    |s| > 0 && s[0] == c
  }

  /** `q` occurs in `s` at position 0. */
  predicate IsPrefixOf(q: string, s: string) {
    |q| <= |s| && s[..|q|] == q
  }

  /** Kotlin `s.contains(q)`: `q` occurs as a contiguous block of `s`. */
  predicate Contains(s: string, q: string)
    decreases |s|
  {
    IsPrefixOf(q, s) || (|s| > 0 && Contains(s[1..], q))
  }

  lemma ContainsEmpty(s: string)
    ensures Contains(s, [])
  {
    assert IsPrefixOf([], s);
  }

  /** ASCII lower-casing; other characters are left alone. */
  function FoldChar(c: char): (d: char)
    ensures 'A' <= c <= 'Z' ==> 'a' <= d <= 'z'
    ensures !('A' <= c <= 'Z') ==> d == c
  {
    if 'A' <= c <= 'Z' then (c as int - 'A' as int + 'a' as int) as char else c
  }

  function Fold(s: string): (r: string)
    ensures |r| == |s|
    ensures forall i :: 0 <= i < |s| ==> r[i] == FoldChar(s[i])
  {
    seq(|s|, i requires 0 <= i < |s| => FoldChar(s[i]))
  }

  /** Kotlin `a.equals(b, ignoreCase = true)`, restricted to ASCII case folding. */
  predicate EqualsIgnoreCase(a: string, b: string) {
    Fold(a) == Fold(b)
  }

  /** Kotlin `s.contains(q, ignoreCase = true)`, restricted to ASCII case folding. */
  predicate ContainsIgnoreCase(s: string, q: string) {
    Contains(Fold(s), Fold(q))
  }
}

=== FILE: createedit.dfy ===
/**
 CreateEditListViewModel: loading a list's details for the edit screen and
 saving the screen's result, either as a new list or over an existing one.
 The coroutine each call launches is modelled as running to completion.
 */
module CreateEdit {
  import opened Common
  import opened Store
  import Repository

  /** The repository's database and the `listDetails` state flow. */
  datatype ViewModel = ViewModel(db: Db, listDetails: Option<BroadcastList>)

  /** `loadListDetails`: the list row, or null when the id is unknown; the database is not touched. */
  function LoadListDetails(vm: ViewModel, listId: int): (r: ViewModel)
    ensures r.db == vm.db
    ensures r.listDetails.Some? <==> listId in vm.db.lists
    ensures r.listDetails.Some? ==> r.listDetails.value == vm.db.lists[listId]
  {
    var found := Repository.GetBroadcastListWithContacts(vm.db, listId);
    vm.(listDetails := if found.Some? then Some(found.value.list) else None)
  }

  /**
   `saveList`: with no id a new list is inserted with the contacts; with an
   id the current row is re-read, renamed and saved through the transaction,
   and an unknown id changes nothing. `listDetails` is reset in every case.
   */
  function SaveList(vm: ViewModel, name: string, emoji: string, contacts: seq<Contact>, listId: Option<int>)
    : (r: ViewModel)
    ensures r.listDetails == None
    ensures listId.None? ==>
              && r.db.lists.Keys == vm.db.lists.Keys + {r.db.lastId}
              && r.db.lists[r.db.lastId] == BroadcastList(r.db.lastId, name, emoji)
              && Phones(contacts) <= Members(r.db, r.db.lastId)
    ensures listId.None? ==>
              && (forall k :: k in vm.db.lists && k != r.db.lastId ==> r.db.lists[k] == vm.db.lists[k])
              && (forall k :: k != r.db.lastId ==> RefsOf(r.db, k) == RefsOf(vm.db, k))
    ensures (listId.None? || listId.value in vm.db.lists) ==>
              && r.db.contacts.Keys == vm.db.contacts.Keys + Phones(contacts)
              && (forall p :: p in Phones(contacts) ==> r.db.contacts[p] == Latest(contacts, p))
              && (forall p :: p in vm.db.contacts && p !in Phones(contacts) ==> r.db.contacts[p] == vm.db.contacts[p])
    ensures listId.None? && Wf(vm.db) && NoFutureRefs(vm.db) ==>
              && r.db.lastId !in vm.db.lists
              && Members(r.db, r.db.lastId) == Phones(contacts)
    ensures listId.Some? && listId.value !in vm.db.lists ==> r.db == vm.db
    ensures listId.Some? && listId.value in vm.db.lists ==>
              && Members(r.db, vm.db.lists[listId.value].id) == Phones(contacts)
              && r.db.lastId == vm.db.lastId
    ensures listId.Some? && listId.value in vm.db.lists && Wf(vm.db) ==>
              && r.db.lists == vm.db.lists[listId.value := BroadcastList(listId.value, name, emoji)]
              && (forall k :: k != listId.value ==> RefsOf(r.db, k) == RefsOf(vm.db, k))
    ensures Wf(vm.db) ==> Wf(r.db)
  {
    if listId.None? then
      var ins := Repository.InsertBroadcastListWithContacts(vm.db, BroadcastList(0, name, emoji), contacts);
      if Wf(vm.db) && NoFutureRefs(vm.db) then
        Repository.InsertNewListHasExactlyItsContacts(vm.db, BroadcastList(0, name, emoji), contacts);
        ViewModel(ins.db, None)
      else
        ViewModel(ins.db, None)
    else
      var current := Repository.GetBroadcastListWithContacts(vm.db, listId.value);
      if current.Some? then
        var updated := current.value.list.(name := name, iconEmoji := emoji);
        ViewModel(Repository.UpdateBroadcastListWithContacts(vm.db, updated, contacts), None)
      else
        ViewModel(vm.db, None)
  }

  /** Editing a list and loading it again shows the new name and emoji under the same id. */
  lemma SaveThenLoad(vm: ViewModel, name: string, emoji: string, contacts: seq<Contact>, listId: int)
    requires Wf(vm.db) && listId in vm.db.lists
    ensures LoadListDetails(SaveList(vm, name, emoji, contacts, Some(listId)), listId).listDetails ==
              Some(BroadcastList(listId, name, emoji))
  {
  }

  /** Creating a list and loading it by the new id shows what was saved. */
  lemma CreateThenLoad(vm: ViewModel, name: string, emoji: string, contacts: seq<Contact>)
    ensures var r := SaveList(vm, name, emoji, contacts, None);
            LoadListDetails(r, r.db.lastId).listDetails == Some(BroadcastList(r.db.lastId, name, emoji))
  {
  }
}

=== FILE: nodes.dfy ===
/**
 The accessibility node tree the service inspects, the pre-order collection
 of its nodes (`collectNodes`), and the prioritised send-button search
 (`findAndClickSendButton`): view-id lookups first, then text lookups, then
 a scan of every node for a matching content description. Every click that
 is attempted is reported, in order, so that a caller can see the side
 effects of a search and not only its verdict.
 */
module Nodes {
  import opened Common

  /**
   One `AccessibilityNodeInfo`. `clickSucceeds` is what
   `performAction(ACTION_CLICK)` reports for the node at the time of the
   search; a child slot may be empty because `getChild(i)` can return null.
   */
  datatype Node = Node(
    viewId: Option<string>,
    text: Option<string>,
    contentDescription: Option<string>,
    clickable: bool,
    enabled: bool,
    clickSucceeds: bool,
    children: seq<Option<Node>>)

  /* ---------------------------------------------------------------------
     Tree shape
     --------------------------------------------------------------------- */

  /** `d` is `n` itself or lies in one of its non-empty child slots. */
  predicate IsNodeOf(d: Node, n: Node)
    decreases n
  {
    d == n || exists i :: 0 <= i < |n.children| && IsNodeOfSlot(d, n.children[i])
  }

  predicate IsNodeOfSlot(d: Node, slot: Option<Node>)
    decreases slot
  {
    match slot
    case None => false
    case Some(c) => IsNodeOf(d, c)
  }

  /** Number of node positions in the tree. */
  function Size(n: Node): nat
    decreases n
  {
    1 + SizeAll(n.children)
  }

  function SizeAll(slots: seq<Option<Node>>): nat
    decreases slots
  {
    if |slots| == 0 then 0 else SizeSlot(slots[0]) + SizeAll(slots[1..])
  }

  function SizeSlot(slot: Option<Node>): nat
    decreases slot
  {
    match slot
    case None => 0
    case Some(c) => Size(c)
  }

  /** The node first, then the pre-orders of its children, left to right. */
  function PreOrder(n: Node): (r: seq<Node>)
    ensures |r| > 0 && r[0] == n
    decreases n
  {
    [n] + PreOrderAll(n.children)
  }

  function PreOrderAll(slots: seq<Option<Node>>): seq<Node>
    decreases slots
  {
    if |slots| == 0 then []
    else PreOrderSlot(slots[0]) + PreOrderAll(slots[1..])
  }

  function PreOrderSlot(slot: Option<Node>): seq<Node>
    decreases slot
  {
    match slot
    case None => []
    case Some(c) => PreOrder(c)
  }

  lemma {:induction false} PreOrderAllAppend(a: seq<Option<Node>>, b: seq<Option<Node>>)
    ensures PreOrderAll(a + b) == PreOrderAll(a) + PreOrderAll(b)
    decreases |a|
  {
    if |a| == 0 {
      assert a + b == b;
    } else {
      assert (a + b)[1..] == a[1..] + b;
      PreOrderAllAppend(a[1..], b);
    }
  }

  /** The pre-order has one entry per node position of the tree. */
  lemma {:induction false} PreOrderLength(n: Node)
    ensures |PreOrder(n)| == Size(n)
    decreases n
  {
    PreOrderAllLength(n.children);
  }

  lemma {:induction false} PreOrderAllLength(slots: seq<Option<Node>>)
    ensures |PreOrderAll(slots)| == SizeAll(slots)
    decreases slots
  {
    if |slots| > 0 {
      PreOrderSlotLength(slots[0]);
      PreOrderAllLength(slots[1..]);
    }
  }

  lemma {:induction false} PreOrderSlotLength(slot: Option<Node>)
    ensures |PreOrderSlot(slot)| == SizeSlot(slot)
    decreases slot
  {
    match slot
    case None =>
    case Some(c) => PreOrderLength(c);
  }

  /** The pre-order lists exactly the nodes of the tree. */
  lemma {:induction false} PreOrderMembers(n: Node, d: Node)
    ensures d in PreOrder(n) <==> IsNodeOf(d, n)
    decreases n
  {
    PreOrderAllMembers(n.children, d);
  }

  lemma {:induction false} PreOrderAllMembers(slots: seq<Option<Node>>, d: Node)
    ensures d in PreOrderAll(slots) <==> exists i :: 0 <= i < |slots| && IsNodeOfSlot(d, slots[i])
    decreases slots
  {
    if |slots| > 0 {
      PreOrderSlotMembers(slots[0], d);
      PreOrderAllMembers(slots[1..], d);
      if d in PreOrderAll(slots) {
        if d !in PreOrderSlot(slots[0]) {
          var i :| 0 <= i < |slots[1..]| && IsNodeOfSlot(d, slots[1..][i]);
          assert IsNodeOfSlot(d, slots[i + 1]);
        }
      } else {
        forall i | 0 <= i < |slots|
          ensures !IsNodeOfSlot(d, slots[i])
        {
          if i > 0 {
            assert slots[i] == slots[1..][i - 1];
          }
        }
      }
    }
  }

  lemma {:induction false} PreOrderSlotMembers(slot: Option<Node>, d: Node)
    ensures d in PreOrderSlot(slot) <==> IsNodeOfSlot(d, slot)
    decreases slot
  {
    match slot
    case None =>
    case Some(c) => PreOrderMembers(c, d);
  }

  /**
   `collectNodes`: appends the node, then recursively every child slot, to
   the list collected so far; a null node adds nothing.
   */
  method CollectNodes(node: Option<Node>, collected: seq<Node>) returns (r: seq<Node>)
    ensures node.None? ==> r == collected
    ensures node.Some? ==> r == collected + PreOrder(node.value)
    decreases node
  {
    if node.None? {
      return collected;
    }
    var n := node.value;
    r := collected + [n];
    var i := 0;
    while i < |n.children|
      invariant 0 <= i <= |n.children|
      invariant r == collected + [n] + PreOrderAll(n.children[..i])
    {
      r := CollectNodes(n.children[i], r);
      assert n.children[..i + 1] == n.children[..i] + [n.children[i]];
      PreOrderAllAppend(n.children[..i], [n.children[i]]);
      assert PreOrderAll([n.children[i]]) == PreOrderSlot(n.children[i]);
      i := i + 1;
    }
    assert n.children[..|n.children|] == n.children;
  }

  /* ---------------------------------------------------------------------
     Send-button search
     --------------------------------------------------------------------- */

  const SendButtonIds: seq<string> := ["com.whatsapp:id/send", "com.whatsapp:id/entry_send"]
  const SendButtonTexts: seq<string> := ["Send", "SEND"]
  const SendButtonDescriptions: seq<string> := ["Send", "send", "Enviar"]

  /**
   The framework's `findAccessibilityNodeInfosByViewId` and
   `findAccessibilityNodeInfosByText` matching rules, supplied by the
   environment: each lookup returns the matching nodes of the tree in
   pre-order.
   */
  datatype Lookup = Lookup(matchesViewId: (Node, string) -> bool, matchesText: (Node, string) -> bool)

  function FindByViewId(root: Node, lookup: Lookup, id: string): seq<Node> {
    Filter(PreOrder(root), n => lookup.matchesViewId(n, id))
  }

  function FindByText(root: Node, lookup: Lookup, text: string): seq<Node> {
    Filter(PreOrder(root), n => lookup.matchesText(n, text))
  }

  /** `contentDescription?.toString().equals(option, ignoreCase = true)`; a missing description never matches. */
  function DescriptionMatches(n: Node, option: string): (b: bool)
    ensures b ==> n.contentDescription.Some? && |n.contentDescription.value| == |option|
    ensures n.contentDescription == Some(option) ==> b
  {
    n.contentDescription.Some? && EqualsIgnoreCase(n.contentDescription.value, option)
  }

  function FindByDescription(root: Node, option: string): seq<Node> {
    Filter(PreOrder(root), n => DescriptionMatches(n, option))
  }

  function Concat(groups: seq<seq<Node>>): seq<Node>
    decreases |groups|
  {
    if |groups| == 0 then [] else groups[0] + Concat(groups[1..])
  }

  lemma {:induction false} ConcatAppend(a: seq<seq<Node>>, b: seq<seq<Node>>)
    ensures Concat(a + b) == Concat(a) + Concat(b)
    decreases |a|
  {
    if |a| == 0 {
      assert a + b == b;
    } else {
      assert (a + b)[1..] == a[1..] + b;
      ConcatAppend(a[1..], b);
    }
  }

  /** The lookups in the order the search performs them, one group per option. */
  function IdGroups(root: Node, lookup: Lookup): seq<seq<Node>> {
    seq(|SendButtonIds|, i requires 0 <= i < |SendButtonIds| => FindByViewId(root, lookup, SendButtonIds[i]))
  }

  function TextGroups(root: Node, lookup: Lookup): seq<seq<Node>> {
    seq(|SendButtonTexts|, i requires 0 <= i < |SendButtonTexts| => FindByText(root, lookup, SendButtonTexts[i]))
  }

  function DescriptionGroups(root: Node): seq<seq<Node>> {
    seq(|SendButtonDescriptions|,
        i requires 0 <= i < |SendButtonDescriptions| => FindByDescription(root, SendButtonDescriptions[i]))
  }

  function CandidateGroups(root: Node, lookup: Lookup): seq<seq<Node>> {
    IdGroups(root, lookup) + TextGroups(root, lookup) + DescriptionGroups(root)
  }

  /** A node the search is willing to click. */
  predicate Eligible(n: Node) {
    n.clickable && n.enabled
  }

  /** Verdict of a search together with every node on which a click was performed, in order. */
  datatype ClickResult = ClickResult(clicked: bool, attempts: seq<Node>)

  /**
   Reference behaviour of the search over a candidate sequence: click every
   eligible candidate in turn and stop at the first click that reports
   success.
   */
  function ClickRun(candidates: seq<Node>): (r: ClickResult)
    ensures |r.attempts| <= |candidates|
    ensures r.clicked ==> |r.attempts| > 0
    decreases |candidates|
  {
    if |candidates| == 0 then ClickResult(false, [])
    else
      var c := candidates[0];
      var rest := ClickRun(candidates[1..]);
      if !Eligible(c) then rest
      else if c.clickSucceeds then ClickResult(true, [c])
      else ClickResult(rest.clicked, [c] + rest.attempts)
  }

  /**
   The search clicks only eligible candidates; it reports success exactly
   when some eligible candidate accepts the click, and then that click is
   the last one made; every earlier click failed.
   */
  lemma {:induction false} ClickRunSound(candidates: seq<Node>)
    ensures var r := ClickRun(candidates);
            && (forall i :: 0 <= i < |r.attempts| ==> Eligible(r.attempts[i]) && r.attempts[i] in candidates)
            && (r.clicked <==> exists i :: 0 <= i < |candidates| && Eligible(candidates[i]) && candidates[i].clickSucceeds)
            && (r.clicked ==> |r.attempts| > 0 && r.attempts[|r.attempts| - 1].clickSucceeds)
            && (forall i :: 0 <= i < |r.attempts| && (i < |r.attempts| - 1 || !r.clicked) ==>
                  !r.attempts[i].clickSucceeds)
    decreases |candidates|
  {
    if |candidates| > 0 {
      var c := candidates[0];
      var rest := ClickRun(candidates[1..]);
      ClickRunSound(candidates[1..]);
      assert forall i :: 0 < i < |candidates| ==> candidates[i] == candidates[1..][i - 1];
      assert forall x :: x in candidates[1..] ==> x in candidates;
    }
  }

  /**
   When candidate `k` is the first eligible one whose click succeeds, the
   search clicks every eligible candidate up to and including `k`, in order,
   and reports success.
   */
  lemma {:induction false} ClickRunStopsAtFirstSuccess(candidates: seq<Node>, k: nat)
    requires k < |candidates| && Eligible(candidates[k]) && candidates[k].clickSucceeds
    requires forall i :: 0 <= i < k && Eligible(candidates[i]) ==> !candidates[i].clickSucceeds
    ensures ClickRun(candidates) == ClickResult(true, Filter(candidates[..k + 1], Eligible))
    decreases k
  {
    var c := candidates[0];
    if k == 0 {
      assert candidates[..1] == [c];
      assert Filter(candidates[..1], Eligible) == [c] + Filter(candidates[..1][1..], Eligible);
      assert candidates[..1][1..] == [];
    } else {
      var tail := candidates[1..];
      assert forall i :: 0 <= i < k - 1 ==> tail[i] == candidates[i + 1];
      ClickRunStopsAtFirstSuccess(tail, k - 1);
      var pre := candidates[..k + 1];
      assert pre[0] == c && pre[1..] == tail[..k];
      assert Filter(pre, Eligible) == (if Eligible(c) then [c] else []) + Filter(tail[..k], Eligible);
    }
  }

  /** When no eligible candidate accepts the click, the search clicks every eligible candidate, in order, and fails. */
  lemma {:induction false} ClickRunWithoutSuccess(candidates: seq<Node>)
    requires forall i :: 0 <= i < |candidates| && Eligible(candidates[i]) ==> !candidates[i].clickSucceeds
    ensures ClickRun(candidates) == ClickResult(false, Filter(candidates, Eligible))
    decreases |candidates|
  {
    if |candidates| > 0 {
      var tail := candidates[1..];
      assert forall i :: 0 <= i < |tail| ==> tail[i] == candidates[i + 1];
      ClickRunWithoutSuccess(tail);
    }
  }

  /** A search over `a + b` finishes in `a` if `a` has a successful click, and otherwise continues into `b`. */
  lemma {:induction false} ClickRunAppend(a: seq<Node>, b: seq<Node>)
    ensures ClickRun(a).clicked ==> ClickRun(a + b) == ClickRun(a)
    ensures !ClickRun(a).clicked ==>
              ClickRun(a + b) == ClickResult(ClickRun(b).clicked, ClickRun(a).attempts + ClickRun(b).attempts)
    decreases |a|
  {
    if |a| == 0 {
      assert a + b == b;
    } else {
      var c := a[0];
      assert (a + b)[0] == c;
      assert (a + b)[1..] == a[1..] + b;
      ClickRunAppend(a[1..], b);
      var tail := ClickRun(a[1..]);
      if !Eligible(c) {
        assert ClickRun(a) == tail;
        assert ClickRun(a + b) == ClickRun(a[1..] + b);
      } else if c.clickSucceeds {
        assert ClickRun(a) == ClickResult(true, [c]);
        assert ClickRun(a + b) == ClickResult(true, [c]);
      } else {
        assert ClickRun(a) == ClickResult(tail.clicked, [c] + tail.attempts);
        var tb := ClickRun(a[1..] + b);
        assert ClickRun(a + b) == ClickResult(tb.clicked, [c] + tb.attempts);
        if !tail.clicked {
          assert [c] + tail.attempts + ClickRun(b).attempts == [c] + (tail.attempts + ClickRun(b).attempts);
        }
      }
    }
  }

  /**
   Candidates are tried phase by phase: a successful click among the view-id
   matches ends the search there; only when every view-id attempt fails do
   the text matches get their turn, and the description scan comes last.
   */
  lemma SearchPhaseOrder(root: Node, lookup: Lookup)
    ensures var ids := ClickRun(Concat(IdGroups(root, lookup)));
            var texts := ClickRun(Concat(TextGroups(root, lookup)));
            var descs := ClickRun(Concat(DescriptionGroups(root)));
            var all := ClickRun(Concat(CandidateGroups(root, lookup)));
            && (ids.clicked ==> all == ids)
            && (!ids.clicked && texts.clicked ==> all == ClickResult(true, ids.attempts + texts.attempts))
            && (!ids.clicked && !texts.clicked ==>
                  all == ClickResult(descs.clicked, ids.attempts + texts.attempts + descs.attempts))
  {
    var I := IdGroups(root, lookup);
    var T := TextGroups(root, lookup);
    var D := DescriptionGroups(root);
    ConcatAppend(I + T, D);
    ConcatAppend(I, T);
    ClickRunAppend(Concat(I), Concat(T));
    ClickRunAppend(Concat(I) + Concat(T), Concat(D));
  }

  /** The description options "Send" and "send" select the same nodes, so that scan is made twice. */
  lemma DescriptionOptionsOverlap(root: Node)
    ensures FindByDescription(root, SendButtonDescriptions[0]) == FindByDescription(root, SendButtonDescriptions[1])
  {
    assert Fold(SendButtonDescriptions[0]) == Fold(SendButtonDescriptions[1]);
    FilterSamePredicate(PreOrder(root),
                        n => DescriptionMatches(n, SendButtonDescriptions[0]),
                        n => DescriptionMatches(n, SendButtonDescriptions[1]));
  }

  /** `findAndClickSendButton`, walking the candidate groups with the nested loops of the source. */
  method FindAndClickSendButton(root: Node, lookup: Lookup) returns (clicked: bool, attempts: seq<Node>)
    ensures ClickResult(clicked, attempts) == ClickRun(Concat(CandidateGroups(root, lookup)))
    ensures clicked ==> |attempts| > 0 && Eligible(attempts[|attempts| - 1])
                        && attempts[|attempts| - 1].clickSucceeds
    ensures forall i :: 0 <= i < |attempts| ==> Eligible(attempts[i]) && IsNodeOf(attempts[i], root)
  {
    var groups := CandidateGroups(root, lookup);
    clicked, attempts := TryGroups(groups);
    ClickRunSound(Concat(groups));
    forall i | 0 <= i < |attempts|
      ensures IsNodeOf(attempts[i], root)
    {
      CandidatesAreNodes(root, lookup, attempts[i]);
      PreOrderMembers(root, attempts[i]);
    }
  }

  lemma CandidatesAreNodes(root: Node, lookup: Lookup, n: Node)
    requires n in Concat(CandidateGroups(root, lookup))
    ensures n in PreOrder(root)
  {
    var groups := CandidateGroups(root, lookup);
    ConcatMember(groups, n);
    var k :| 0 <= k < |groups| && n in groups[k];
  }

  lemma {:induction false} ConcatMember(groups: seq<seq<Node>>, n: Node)
    requires n in Concat(groups)
    ensures exists k :: 0 <= k < |groups| && n in groups[k]
    decreases |groups|
  {
    if n !in groups[0] {
      ConcatMember(groups[1..], n);
      var k :| 0 <= k < |groups[1..]| && n in groups[1..][k];
      assert n in groups[k + 1];
    }
  }

  /** Clicks eligible candidates group by group and returns at the first click that succeeds. */
  method TryGroups(groups: seq<seq<Node>>) returns (clicked: bool, attempts: seq<Node>)
    ensures ClickResult(clicked, attempts) == ClickRun(Concat(groups))
  {
    attempts := [];
    var k := 0;
    while k < |groups|
      invariant 0 <= k <= |groups|
      invariant ClickRun(Concat(groups[..k])) == ClickResult(false, attempts)
    {
      var buttons := groups[k];
      var j := 0;
      assert Concat(groups[..k]) + buttons[..0] == Concat(groups[..k]);
      while j < |buttons|
        invariant 0 <= j <= |buttons|
        invariant ClickRun(Concat(groups[..k]) + buttons[..j]) == ClickResult(false, attempts)
      {
        var b := buttons[j];
        ClickRunAppend(Concat(groups[..k]) + buttons[..j], [b]);
        assert buttons[..j + 1] == buttons[..j] + [b];
        assert Concat(groups[..k]) + buttons[..j + 1] == Concat(groups[..k]) + buttons[..j] + [b];
        if Eligible(b) {
          attempts := attempts + [b];
          if b.clickSucceeds {
            SplitAt(groups, k, j);
            ClickRunAppend(Concat(groups[..k]) + buttons[..j + 1], buttons[j + 1..] + Concat(groups[k + 1..]));
            return true, attempts;
          }
        }
        j := j + 1;
      }
      assert buttons[..j] == buttons;
      ConcatAppend(groups[..k], [buttons]);
      assert groups[..k + 1] == groups[..k] + [buttons];
      ConcatSingle(buttons);
      k := k + 1;
    }
    assert groups[..k] == groups;
    return false, attempts;
  }

  lemma ConcatSingle(g: seq<Node>)
    ensures Concat([g]) == g
  {
    assert [g][1..] == [];
  }

  lemma SplitAt(groups: seq<seq<Node>>, k: nat, j: nat)
    requires k < |groups| && j < |groups[k]|
    ensures Concat(groups) ==
              (Concat(groups[..k]) + groups[k][..j + 1]) + (groups[k][j + 1..] + Concat(groups[k + 1..]))
  {
    assert groups == groups[..k] + [groups[k]] + groups[k + 1..];
    ConcatAppend(groups[..k] + [groups[k]], groups[k + 1..]);
    ConcatAppend(groups[..k], [groups[k]]);
    ConcatSingle(groups[k]);
    assert groups[k] == groups[k][..j + 1] + groups[k][j + 1..];
  }
}

=== FILE: phone.dfy ===
/**
 Recipient preparation in WhatsAppHelper: rewriting a raw phone number into
 the `+<country><number>` form the deep link expects, and the guard /
 normalise / filter / de-duplicate pipeline of `sendMessage` that decides
 whether, and with which numbers, the send queue is started.
 */
module Phone {
  import opened Common

  /** Characters matched by the pattern `[\s-]`; Java's `\s` is ASCII whitespace. */
  function IsSeparator(c: char): (b: bool)
    ensures b ==> c != '+' && !('0' <= c <= '9')
  {
    c == ' ' || c == '\t' || c == '\n' || c == '\U{000B}' || c == '\U{000C}' || c == '\r' || c == '-'
  }

  predicate IsKept(c: char) {
    !IsSeparator(c)
  }

  /** `replace(Regex("[\\s-]"), "")`. */
  function Strip(s: string): (r: string)
    ensures forall i :: 0 <= i < |r| ==> !IsSeparator(r[i])
  {
    Filter(s, IsKept)
  }

  /** Stripping deletes every separator and keeps every other character, each as often as it occurred. */
  lemma StripRemovesExactlySeparators(s: string, c: char)
    ensures IsSeparator(c) ==> multiset(Strip(s))[c] == 0
    ensures !IsSeparator(c) ==> multiset(Strip(s))[c] == multiset(s)[c]
  {
    FilterCounts(s, IsKept, c);
  }

  /** Stripping works piecewise, so it keeps the order of the surviving characters. */
  lemma StripAppend(a: string, b: string)
    ensures Strip(a + b) == Strip(a) + Strip(b)
  {
    FilterAppend(a, b, IsKept);
  }

  /** The number a deep link can use: it carries an explicit country code. */
  predicate IsInternational(n: string) {
    StartsWithChar(n, '+')
  }

  /** Indian numbers without a country code get `+91`: ten characters not starting with 0, or a trunk 0. */
  function Normalize(raw: string): (r: string)
    ensures forall i :: 0 <= i < |r| ==> !IsSeparator(r[i])
    ensures IsInternational(Strip(raw)) ==> r == Strip(raw)
    ensures (!IsInternational(Strip(raw)) && |Strip(raw)| == 10 && !StartsWithChar(Strip(raw), '0'))
              ==> r == "+91" + Strip(raw)
    ensures StartsWithChar(Strip(raw), '0') ==> r == "+91" + Strip(raw)[1..]
    ensures !IsInternational(r) ==> r == Strip(raw)
  {
    var s := Strip(raw);
    if StartsWithChar(s, '+') then s
    else if |s| == 10 && !StartsWithChar(s, '0') then "+91" + s
    else if StartsWithChar(s, '0') then "+91" + s[1..]
    else s
  }

  /** A number leaves normalisation with a `+` exactly when one of the three rules applies. */
  lemma NormalizeInternationalIff(raw: string)
    ensures IsInternational(Normalize(raw)) <==>
              IsInternational(Strip(raw)) || StartsWithChar(Strip(raw), '0') || |Strip(raw)| == 10
  {
  }

  /** Normalising twice is normalising once. */
  lemma NormalizeIdempotent(raw: string)
    ensures Normalize(Normalize(raw)) == Normalize(raw)
  {
    var n := Normalize(raw);
    FilterKeepsAll(n, IsKept);
    assert Strip(n) == n;
  }

  /** Outcome of `sendMessage`. */
  datatype SendOutcome =
    | PermissionRequested     // service disabled: the accessibility settings are opened instead
    | NoContacts              // empty input list
    | NoValidContacts         // no number normalised to the international form
    | QueueStarted(numbers: seq<string>, message: string, media: Option<string>)

  function NormalizeAll(phoneNumbers: seq<string>): (r: seq<string>)
    ensures |r| == |phoneNumbers|
    ensures forall i :: 0 <= i < |r| ==> r[i] == Normalize(phoneNumbers[i])
  {
    seq(|phoneNumbers|, i requires 0 <= i < |phoneNumbers| => Normalize(phoneNumbers[i]))
  }

  /** `map { normalize } .filter { startsWith("+") } .toSet().toList()`. */
  function Recipients(phoneNumbers: seq<string>): (r: seq<string>)
    ensures NoDup(r)
    ensures forall k :: 0 <= k < |r| ==> IsInternational(r[k]) && r[k] in NormalizeAll(phoneNumbers)
    ensures forall i :: 0 <= i < |phoneNumbers| && IsInternational(Normalize(phoneNumbers[i])) ==>
              Normalize(phoneNumbers[i]) in r
  {
    var all := NormalizeAll(phoneNumbers);
    DistinctFilterMembers(all, IsInternational);
    assert forall i :: 0 <= i < |phoneNumbers| ==> all[i] == Normalize(phoneNumbers[i]);
    Distinct(Filter(all, IsInternational))
  }

  /**
   The guards and the recipient pipeline of `sendMessage`; `serviceEnabled`
   stands for the accessibility-manager query.
   */
  function SendMessage(serviceEnabled: bool, message: string, media: Option<string>, phoneNumbers: seq<string>)
    : (r: SendOutcome)
    ensures r == PermissionRequested <==> !serviceEnabled
    ensures r == NoContacts <==> serviceEnabled && |phoneNumbers| == 0
    ensures r == NoValidContacts <==>
              serviceEnabled && |phoneNumbers| > 0 &&
              forall i :: 0 <= i < |phoneNumbers| ==> !IsInternational(Normalize(phoneNumbers[i]))
    ensures r.QueueStarted? ==> r.message == message && r.media == media
    ensures r.QueueStarted? ==> |r.numbers| > 0 && NoDup(r.numbers)
    ensures r.QueueStarted? ==>
              forall k :: 0 <= k < |r.numbers| ==>
                IsInternational(r.numbers[k]) &&
                exists i :: 0 <= i < |phoneNumbers| && Normalize(phoneNumbers[i]) == r.numbers[k]
    ensures r.QueueStarted? ==>
              forall i :: 0 <= i < |phoneNumbers| && IsInternational(Normalize(phoneNumbers[i])) ==>
                Normalize(phoneNumbers[i]) in r.numbers
  {
    if !serviceEnabled then PermissionRequested
    else if |phoneNumbers| == 0 then NoContacts
    else
      var numbers := Recipients(phoneNumbers);
      RecipientsComeFromInput(phoneNumbers);
      RecipientsCoverInput(phoneNumbers);
      RecipientsEmptyIff(phoneNumbers);
      if |numbers| == 0 then NoValidContacts
      else QueueStarted(numbers, message, media)
  }

  /** Every recipient is the international normalisation of some input number. */
  lemma RecipientsComeFromInput(phoneNumbers: seq<string>)
    ensures forall k :: 0 <= k < |Recipients(phoneNumbers)| ==>
              IsInternational(Recipients(phoneNumbers)[k]) &&
              exists i :: 0 <= i < |phoneNumbers| && Normalize(phoneNumbers[i]) == Recipients(phoneNumbers)[k]
  {
    var all := NormalizeAll(phoneNumbers);
    var d := Recipients(phoneNumbers);
    DistinctFilterMembers(all, IsInternational);
    forall k | 0 <= k < |d|
      ensures exists i :: 0 <= i < |phoneNumbers| && Normalize(phoneNumbers[i]) == d[k]
    {
      var i :| 0 <= i < |all| && all[i] == d[k];
    }
  }

  /** Every input number whose normalisation is international becomes a recipient. */
  lemma RecipientsCoverInput(phoneNumbers: seq<string>)
    ensures forall i :: 0 <= i < |phoneNumbers| && IsInternational(Normalize(phoneNumbers[i])) ==>
              Normalize(phoneNumbers[i]) in Recipients(phoneNumbers)
  {
    var all := NormalizeAll(phoneNumbers);
    DistinctFilterMembers(all, IsInternational);
    forall i | 0 <= i < |phoneNumbers| && IsInternational(Normalize(phoneNumbers[i]))
      ensures Normalize(phoneNumbers[i]) in Recipients(phoneNumbers)
    {
      assert all[i] == Normalize(phoneNumbers[i]);
    }
  }

  /** The recipient list is empty exactly when no input number normalises to the international form. */
  lemma RecipientsEmptyIff(phoneNumbers: seq<string>)
    ensures |Recipients(phoneNumbers)| == 0 <==>
              forall i :: 0 <= i < |phoneNumbers| ==> !IsInternational(Normalize(phoneNumbers[i]))
  {
    RecipientsComeFromInput(phoneNumbers);
    RecipientsCoverInput(phoneNumbers);
    var d := Recipients(phoneNumbers);
    if |d| > 0 {
      var i :| 0 <= i < |phoneNumbers| && Normalize(phoneNumbers[i]) == d[0];
    }
  }

  /** Every started recipient is already in normal form. */
  lemma StartedNumbersAreNormalized(serviceEnabled: bool, message: string, media: Option<string>, phoneNumbers: seq<string>)
    ensures var r := SendMessage(serviceEnabled, message, media, phoneNumbers);
            r.QueueStarted? ==> forall k :: 0 <= k < |r.numbers| ==> Normalize(r.numbers[k]) == r.numbers[k]
  {
    var ns := Recipients(phoneNumbers);
    var all := NormalizeAll(phoneNumbers);
    forall k | 0 <= k < |ns|
      ensures Normalize(ns[k]) == ns[k]
    {
      var i :| 0 <= i < |all| && all[i] == ns[k];
      NormalizeIdempotent(phoneNumbers[i]);
    }
  }

  /** The queue lists recipients in the order their first source number appears in the input. */
  lemma SendMessageKeepsFirstOccurrenceOrder(serviceEnabled: bool, message: string, media: Option<string>,
                                             phoneNumbers: seq<string>)
    ensures var r := SendMessage(serviceEnabled, message, media, phoneNumbers);
            r.QueueStarted? ==>
              forall i, j :: 0 <= i < j < |r.numbers| ==>
                r.numbers[i] in NormalizeAll(phoneNumbers) && r.numbers[j] in NormalizeAll(phoneNumbers) &&
                FirstIndex(NormalizeAll(phoneNumbers), r.numbers[i]) < FirstIndex(NormalizeAll(phoneNumbers), r.numbers[j])
  {
    var all := NormalizeAll(phoneNumbers);
    var valid := Filter(all, IsInternational);
    var ns := Distinct(valid);
    DistinctKeepsFirstOccurrenceOrder(valid);
    forall i, j | 0 <= i < j < |ns|
      ensures ns[i] in all && ns[j] in all && FirstIndex(all, ns[i]) < FirstIndex(all, ns[j])
    {
      FilterKeepsFirstIndexOrder(all, IsInternational, ns[i], ns[j]);
    }
  }
}

=== FILE: picker.dfy ===
/**
 The pure logic of ContactPickerScreen: which contacts the search shows, the
 order they are shown in (selected ones on top), toggling a contact in the
 selection, the pre-selection of an edited list, and the Done button.
 */
module Picker {
  import opened Common
  import opened Store

  /**
   The selected contacts. Compose keeps them in a Kotlin `Set`, whose
   `+` and `-` keep insertion order, so the model is a sequence without
   repetitions.
   */
  type Selection = s: seq<Contact> | NoDup(s) witness []

  /** The search rule: the name contains the query ignoring case, or the phone contains it as typed. */
  predicate MatchesQuery(c: Contact, query: string) {
    ContainsIgnoreCase(c.name, query) || Contains(c.phoneNumber, query)
  }

  function QueryFilter(query: string): Contact -> bool {
    c => MatchesQuery(c, query)
  }

  function InSelection(sel: Selection): Contact -> bool {
    c => c in sel
  }

  function NotInSelection(sel: Selection): Contact -> bool {
    c => c !in sel
  }

  /** `allContacts.filter { ... }`. */
  function Filtered(all: seq<Contact>, query: string): (r: seq<Contact>)
    ensures |r| <= |all|
    ensures forall i :: 0 <= i < |r| ==> r[i] in all && MatchesQuery(r[i], query)
    ensures forall i :: 0 <= i < |all| && MatchesQuery(all[i], query) ==> all[i] in r
  {
    Filter(all, QueryFilter(query))
  }

  /**
   `.sortedByDescending { selectedContacts.contains(it) }`: Kotlin's sort is
   stable and `true` sorts above `false`, so this is a stable partition.
   */
  function Shown(all: seq<Contact>, query: string, sel: Selection): (r: seq<Contact>)
    ensures forall i :: 0 <= i < |r| ==> r[i] in all && MatchesQuery(r[i], query)
  {
    var f := Filtered(all, query);
    Filter(f, InSelection(sel)) + Filter(f, NotInSelection(sel))
  }

  /** A contact is listed exactly when it is one of the contacts and matches the query. */
  lemma ShownIff(all: seq<Contact>, query: string, sel: Selection, c: Contact)
    ensures c in Shown(all, query, sel) <==> c in all && MatchesQuery(c, query)
  {
    var f := Filtered(all, query);
    if c in all && MatchesQuery(c, query) {
      var i :| 0 <= i < |all| && all[i] == c;
      assert c in f;
      var j :| 0 <= j < |f| && f[j] == c;
      if c in sel {
        assert c in Filter(f, InSelection(sel));
      } else {
        assert c in Filter(f, NotInSelection(sel));
      }
    }
    if c in Shown(all, query, sel) {
      assert c in Filter(f, InSelection(sel)) || c in Filter(f, NotInSelection(sel));
      assert c in f;
    }
  }

  /** The empty query matches every contact, so the whole list is shown. */
  lemma EmptyQueryShowsAll(all: seq<Contact>)
    ensures Filtered(all, "") == all
  {
    forall i | 0 <= i < |all|
      ensures QueryFilter("")(all[i])
    {
      ContainsEmpty(Fold(all[i].name));
      assert Fold("") == [];
    }
    FilterKeepsAll(all, QueryFilter(""));
  }

  /** Sorting only reorders: each contact is shown exactly as many times as the filter yields it. */
  lemma ShownIsPermutation(all: seq<Contact>, query: string, sel: Selection, x: Contact)
    ensures multiset(Shown(all, query, sel))[x] == multiset(Filtered(all, query))[x]
  {
    var f := Filtered(all, query);
    FilterCounts(f, InSelection(sel), x);
    FilterCounts(f, NotInSelection(sel), x);
  }

  /** Every selected contact on screen precedes every unselected one. */
  lemma SelectedFirst(all: seq<Contact>, query: string, sel: Selection)
    ensures var s := Shown(all, query, sel);
            forall i, j :: 0 <= i < j < |s| && s[j] in sel ==> s[i] in sel
  {
    var f := Filtered(all, query);
    var a := Filter(f, InSelection(sel));
    var b := Filter(f, NotInSelection(sel));
    var s := a + b;
    forall k | 0 <= k < |s|
      ensures k < |a| ==> s[k] in sel
      ensures k >= |a| ==> s[k] !in sel
    {
      if k < |a| {
        assert s[k] == a[k];
      } else {
        assert s[k] == b[k - |a|];
      }
    }
  }

  /** The sort is stable: within each group the contacts keep the order of the filtered list. */
  lemma {:induction false} ShownIsStable(all: seq<Contact>, query: string, sel: Selection)
    ensures Filter(Shown(all, query, sel), InSelection(sel)) == Filter(Filtered(all, query), InSelection(sel))
    ensures Filter(Shown(all, query, sel), NotInSelection(sel)) == Filter(Filtered(all, query), NotInSelection(sel))
  {
    var f := Filtered(all, query);
    var a := Filter(f, InSelection(sel));
    var b := Filter(f, NotInSelection(sel));
    FilterAppend(a, b, InSelection(sel));
    FilterAppend(a, b, NotInSelection(sel));
    FilterKeepsAll(a, InSelection(sel));
    FilterKeepsAll(b, NotInSelection(sel));
    FilterKeepsNone(a, NotInSelection(sel));
    FilterKeepsNone(b, InSelection(sel));
  }

  function Other(c: Contact): Contact -> bool {
    x => x != c
  }

  /** Tapping a contact: `selected - contact` when present, `selected + contact` otherwise. */
  function Toggle(sel: Selection, c: Contact): (r: Selection)
    ensures c in r <==> c !in sel
    ensures forall x :: x != c ==> (x in r <==> x in sel)
  {
    if c in sel then
      FilterNoDup(sel, Other(c));
      var r := Filter(sel, Other(c));
      assert forall x :: x != c && x in sel ==> x in r by {
        forall x | x != c && x in sel
          ensures x in r
        {
          var i :| 0 <= i < |sel| && sel[i] == x;
        }
      }
      r
    else
      sel + [c]
  }

  /** Toggling twice selects the same contacts; when the contact was absent the selection is exactly restored. */
  lemma {:induction false} ToggleTwice(sel: Selection, c: Contact)
    ensures forall x :: x in Toggle(Toggle(sel, c), c) <==> x in sel
    ensures c !in sel ==> Toggle(Toggle(sel, c), c) == sel
  {
    if c !in sel {
      FilterAppend(sel, [c], Other(c));
      FilterKeepsAll(sel, Other(c));
      FilterKeepsNone([c], Other(c));
      assert Filter(sel + [c], Other(c)) == sel;
    }
  }

  /** Toggling never changes the selection by more than the tapped contact. */
  lemma ToggleSize(sel: Selection, c: Contact)
    ensures |Toggle(sel, c)| == if c in sel then |sel| - 1 else |sel| + 1
  {
    if c in sel {
      var i :| 0 <= i < |sel| && sel[i] == c;
      var r := Toggle(sel, c);
      FilterCounts(sel, Other(c), c);
      assert multiset(sel)[c] == 1 by {
        NoDupCountOne(sel, i);
      }
      forall x | x != c
        ensures multiset(r)[x] == multiset(sel)[x]
      {
        FilterCounts(sel, Other(c), x);
      }
      assert multiset(sel) == multiset(r) + multiset{c};
      assert |multiset(sel)| == |multiset(r)| + 1;
    }
  }

  lemma {:induction false} NoDupCountOne(s: seq<Contact>, i: int)
    requires NoDup(s) && 0 <= i < |s|
    ensures multiset(s)[s[i]] == 1
    decreases |s|
  {
    assert s == [s[0]] + s[1..];
    if i == 0 {
      assert s[0] !in s[1..];
    } else {
      NoDupCountOne(s[1..], i - 1);
      assert s[0] != s[i];
    }
  }

  /**
   The pre-selection effect: while editing a list, a non-empty set of stored
   contacts replaces whatever is selected; otherwise the selection stays.
   */
  function ApplyPreselection(sel: Selection, listIdToEdit: Option<int>, preSelected: Selection): (r: Selection)
    ensures listIdToEdit.Some? && |preSelected| > 0 ==> r == preSelected
    ensures listIdToEdit.None? || |preSelected| == 0 ==> r == sel
    ensures |r| == 0 ==> |sel| == 0
  {
    if listIdToEdit.Some? && |preSelected| > 0 then preSelected else sel
  }

  /** The Done button is enabled exactly when something is selected. */
  function DoneEnabled(sel: Selection): (b: bool)
    ensures b <==> exists c :: c in sel
  {
    assert |sel| > 0 ==> sel[0] in sel;
    |sel| > 0
  }

  /** Pressing Done hands over the selection, in selection order; a disabled button reports nothing. */
  function PressDone(sel: Selection): (r: Option<seq<Contact>>)
    ensures r.Some? <==> DoneEnabled(sel)
    ensures r.Some? ==> r.value == sel
    ensures r.Some? ==> NoDup(r.value) && |r.value| == |sel| && forall x :: x in r.value <==> x in sel
  {
    if DoneEnabled(sel) then Some(sel) else None
  }

  /** Editing a list whose stored membership is non-empty leaves Done enabled from the start. */
  lemma PreselectionEnablesDone(sel: Selection, listId: int, preSelected: Selection)
    requires |preSelected| > 0
    ensures DoneEnabled(ApplyPreselection(sel, Some(listId), preSelected))
  {
  }
}

=== FILE: repository.dfy ===
/**
 BroadcastRepository: the one write that is not a DAO transaction, inserting
 a list together with its contacts and cross references, and the two
 delegating calls the screens use.
 */
module Repository {
  import opened Common
  import opened Store

  /** `getAllBroadcastListsWithContacts`: every stored list with its contacts. */
  function GetAllBroadcastListsWithContacts(db: Db): (r: set<ListWithContacts>)
    ensures r == Store.GetAllBroadcastListsWithContacts(db)
    ensures forall id :: id in db.lists ==> ListWithContacts(db.lists[id], ContactsOf(db, id)) in r
    ensures forall x :: x in r ==> exists id :: id in db.lists && x == ListWithContacts(db.lists[id], ContactsOf(db, id))
  {
    Store.GetAllBroadcastListsWithContacts(db)
  }

  /** `getBroadcastListWithContacts(listId).firstOrNull()`: nothing when no row has that id. */
  function GetBroadcastListWithContacts(db: Db, listId: int): (r: Option<ListWithContacts>)
    ensures r.Some? <==> listId in db.lists
    ensures r.Some? ==> r.value.list == db.lists[listId]
    ensures r == Store.GetBroadcastListWithContacts(db, listId)
    ensures r.Some? ==> r.value.contacts == ContactsOf(db, listId)
    ensures r.Some? && Wf(db) ==>
              forall c :: c in r.value.contacts <==>
                c.phoneNumber in db.contacts && db.contacts[c.phoneNumber] == c && c.phoneNumber in Members(db, listId)
  {
    Store.GetBroadcastListWithContacts(db, listId)
  }

  /**
   `insertBroadcastListWithContacts`: insert the row, upsert the contacts and
   add one cross reference per contact under the returned id. Nothing is
   deleted first, so an explicit id keeps any cross references it already had.
   */
  function InsertBroadcastListWithContacts(db: Db, list: BroadcastList, cs: seq<Contact>): (r: Inserted)
    ensures r.id in r.db.lists && r.db.lists[r.id] == list.(id := r.id)
    ensures list.id != 0 ==> r.id == list.id
    ensures Members(r.db, r.id) == Members(db, r.id) + Phones(cs)
    ensures RefsOf(r.db, r.id) == RefsOf(db, r.id) + set p | p in Phones(cs) :: CrossRef(r.id, p)
    ensures forall k :: k != r.id ==> RefsOf(r.db, k) == RefsOf(db, k)
    ensures forall k :: k != r.id ==> (k in r.db.lists <==> k in db.lists)
    ensures forall k :: k != r.id && k in db.lists ==> r.db.lists[k] == db.lists[k]
    ensures r.db.contacts.Keys == db.contacts.Keys + Phones(cs)
    ensures forall p :: p in Phones(cs) ==> p in r.db.contacts && r.db.contacts[p] == Latest(cs, p)
    ensures forall p :: p in db.contacts && p !in Phones(cs) ==> p in r.db.contacts && r.db.contacts[p] == db.contacts[p]
    ensures list.id == 0 ==> r.db.lastId == r.id && r.id == db.lastId + 1
    ensures list.id != 0 ==> r.db.lastId == (if list.id > db.lastId then list.id else db.lastId)
    ensures Wf(db) ==> Wf(r.db)
    ensures NoFutureRefs(db) ==> NoFutureRefs(r.db)
  {
    var ins := InsertBroadcastList(db, list);
    var d2 := InsertContacts(ins.db, cs);
    var d3 := InsertCrossRefs(d2, RefsFor(ins.id, cs));
    AddRefs(d2, ins.id, cs);
    Inserted(d3, ins.id)
  }

  /** Adding the cross references built from `cs` adds exactly one row per distinct phone, under `listId` only. */
  lemma AddRefs(d: Db, listId: int, cs: seq<Contact>)
    ensures var r := InsertCrossRefs(d, RefsFor(listId, cs));
            && RefsOf(r, listId) == RefsOf(d, listId) + (set p | p in Phones(cs) :: CrossRef(listId, p))
            && Members(r, listId) == Members(d, listId) + Phones(cs)
            && (forall k :: k != listId ==> RefsOf(r, k) == RefsOf(d, k))
  {
    var r := InsertCrossRefs(d, RefsFor(listId, cs));
    forall x | x in r.crossRefs && x !in d.crossRefs
      ensures x.listId == listId && x.contactPhoneNumber in Phones(cs)
    {
      RefsForMembers(listId, cs, x);
    }
    forall p | p in Phones(cs)
      ensures CrossRef(listId, p) in r.crossRefs
    {
      RefsForMembers(listId, cs, CrossRef(listId, p));
    }
  }

  /** A new list (id 0) on a database whose ids were all issued by the counter has exactly the given members. */
  lemma {:induction false} InsertNewListHasExactlyItsContacts(db: Db, list: BroadcastList, cs: seq<Contact>)
    requires list.id == 0 && Wf(db) && NoFutureRefs(db)
    ensures var r := InsertBroadcastListWithContacts(db, list, cs);
            && r.id !in db.lists
            && Members(r.db, r.id) == Phones(cs)
            && RefsOf(r.db, r.id) == set p | p in Phones(cs) :: CrossRef(r.id, p)
  {
    var r := InsertBroadcastListWithContacts(db, list, cs);
    assert r.id == db.lastId + 1;
    FreshIdHasNoMembers(db);
  }

  /** `updateBroadcastListWithContacts`: the DAO transaction. */
  function UpdateBroadcastListWithContacts(db: Db, list: BroadcastList, cs: seq<Contact>): (r: Db)
    ensures Members(r, list.id) == Phones(cs)
    ensures RefsOf(r, list.id) == set p | p in Phones(cs) :: CrossRef(list.id, p)
    ensures forall k :: k != list.id ==> RefsOf(r, k) == RefsOf(db, k)
    ensures list.id in db.lists ==> r.lists == db.lists[list.id := list]
    ensures list.id !in db.lists ==> r.lists == db.lists
    ensures r.contacts.Keys == db.contacts.Keys + Phones(cs)
    ensures forall p :: p in Phones(cs) ==> p in r.contacts && r.contacts[p] == Latest(cs, p)
    ensures forall p :: p in db.contacts && p !in Phones(cs) ==> p in r.contacts && r.contacts[p] == db.contacts[p]
    ensures r.lastId == db.lastId
    ensures Wf(db) ==> Wf(r)
    ensures NoFutureRefs(db) && list.id <= db.lastId ==> NoFutureRefs(r)
    ensures r == Store.UpdateBroadcastListWithContacts(db, list, cs)
  {
    Store.UpdateBroadcastListWithContacts(db, list, cs)
  }

  /** Saving the same contacts twice under an existing list is the same as saving them once. */
  lemma UpdateIdempotentMembers(db: Db, list: BroadcastList, cs: seq<Contact>)
    ensures var once := UpdateBroadcastListWithContacts(db, list, cs);
            var twice := UpdateBroadcastListWithContacts(once, list, cs);
            && Members(twice, list.id) == Members(once, list.id)
            && twice.lists == once.lists
  {
  }
}

=== FILE: service.dfy ===
/**
 The send queue of WhatsAppAccessibilityService as a pure transition
 function. The record `(queue, current, processing, message, media)` is the
 service's mutable fields; every framework callback becomes an `Event`, and
 everything the service does to the outside world (launching WhatsApp,
 clicking a node, posting a delayed `processNextMessage`, stopping itself)
 becomes an `Effect`. A posted `processNextMessage` comes back later as a
 `ProcessNext` event, delivered by the environment.
 */
module Service {
  import opened Common
  import Nodes
  import Phone

  const WhatsAppPackage: string := "com.whatsapp"
  const ActionSendBulk: string := "com.fourseason.broadcast.service.ACTION_SEND_BULK"
  /** Delay before the next number, after a successful click or a failed launch. */
  const NextMessageDelayMs: nat := 2000

  datatype State = State(
    queue: seq<string>,
    current: Option<string>,
    processing: bool,
    message: Option<string>,
    media: Option<string>)

  const Initial: State := State([], None, false, None, None)

  /** The extras of the start intent; each may be missing. */
  datatype Intent = Intent(
    action: Option<string>,
    numbers: Option<seq<string>>,
    message: Option<string>,
    media: Option<string>)

  datatype EventType = WindowStateChanged | WindowContentChanged | ViewClicked | ViewFocused | OtherEventType

  datatype UiEvent = UiEvent(packageName: Option<string>, eventType: EventType)

  /**
   Framework callbacks. `launchSucceeds` says whether `startActivity` returns
   normally if this callback reaches `processNextMessage`; `root` is
   `rootInActiveWindow` at the time of an accessibility event.
   */
  datatype Event =
    | StartCommand(intent: Option<Intent>, launchSucceeds: bool)
    | ProcessNext(launchSucceeds: bool)
    | Accessibility(event: Option<UiEvent>, root: Option<Nodes.Node>, lookup: Nodes.Lookup)
    | Interrupt
    | Destroy

  datatype Effect =
    | Launch(number: string, text: string, media: Option<string>)  // startActivity for one recipient
    | Click(node: Nodes.Node)                                      // performAction(ACTION_CLICK)
    | ScheduleNext(delayMs: nat)                                   // postDelayed { processNextMessage() }
    | StopSelf

  datatype Output = Output(state: State, effects: seq<Effect>)

  /** The numbers launched by a sequence of effects, in order. */
  function Launched(effects: seq<Effect>): seq<string>
    decreases |effects|
  {
    if |effects| == 0 then []
    else (if effects[0].Launch? then [effects[0].number] else []) + Launched(effects[1..])
  }

  lemma {:induction false} LaunchedAppend(a: seq<Effect>, b: seq<Effect>)
    ensures Launched(a + b) == Launched(a) + Launched(b)
    decreases |a|
  {
    if |a| == 0 {
      assert a + b == b;
    } else {
      assert (a + b)[1..] == a[1..] + b;
      LaunchedAppend(a[1..], b);
    }
  }

  function Clicks(nodes: seq<Nodes.Node>): (r: seq<Effect>)
    ensures |r| == |nodes|
    ensures forall i :: 0 <= i < |r| ==> r[i] == Click(nodes[i])
  {
    seq(|nodes|, i requires 0 <= i < |nodes| => Click(nodes[i]))
  }

  lemma NoLaunchInClicks(nodes: seq<Nodes.Node>)
    ensures Launched(Clicks(nodes)) == []
    decreases |nodes|
  {
    if |nodes| > 0 {
      NoLaunchInClicks(nodes[1..]);
      assert Clicks(nodes)[1..] == Clicks(nodes[1..]);
    }
  }

  /** `stopSelfIfIdle`. */
  function StopSelfIfIdle(s: State): (effects: seq<Effect>)
    ensures StopSelf in effects <==> !s.processing && |s.queue| == 0
  {
    if !s.processing && |s.queue| == 0 then [StopSelf] else []
  }

  /**
   `processNextMessage`: finish when the queue is empty, otherwise take the
   head as the current number and launch WhatsApp for it; a launch that
   throws skips the number and posts the next step.
   */
  function ProcessNextMessage(s: State, launchSucceeds: bool): (o: Output)
    ensures Launched(o.effects) + o.state.queue == s.queue
    ensures |Launched(o.effects)| == (if |s.queue| == 0 then 0 else 1)
    ensures o.state.current == (if |s.queue| == 0 then None else Some(s.queue[0]))
    ensures o.state.processing == (s.processing && |s.queue| > 0)
    ensures o.state.message == s.message && o.state.media == s.media
    ensures |s.queue| > 0 ==> o.effects[0] == Launch(s.queue[0], s.message.GetOr(""), s.media)
    ensures ScheduleNext(NextMessageDelayMs) in o.effects <==> |s.queue| > 0 && !launchSucceeds
    ensures StopSelf in o.effects <==> |s.queue| == 0
  {
    if |s.queue| == 0 then
      var s' := s.(processing := false, current := None);
      Output(s', StopSelfIfIdle(s'))
    else
      var number := s.queue[0];
      var s' := s.(current := Some(number), queue := s.queue[1..]);
      var launch := Launch(number, s.message.GetOr(""), s.media);
      assert Launched([launch]) == [number];
      assert [launch, ScheduleNext(NextMessageDelayMs)][1..] == [ScheduleNext(NextMessageDelayMs)];
      assert Launched([ScheduleNext(NextMessageDelayMs)]) == [];
      Output(s', if launchSucceeds then [launch] else [launch, ScheduleNext(NextMessageDelayMs)])
  }

  predicate IsSendBulk(intent: Option<Intent>) {
    intent.Some? && intent.value.action == Some(ActionSendBulk)
  }

  /** The intent carries both the numbers and the message. */
  predicate IsComplete(intent: Intent) {
    intent.numbers.Some? && intent.message.Some?
  }

  /**
   `onStartCommand`: a complete send-bulk intent always replaces the queue,
   the message and the media and forgets the current number; only an idle
   service with a non-empty new queue starts dispatching.
   */
  function OnStartCommand(s: State, intent: Option<Intent>, launchSucceeds: bool): (o: Output)
    ensures !IsSendBulk(intent) ==> o == Output(s, [])
    ensures IsSendBulk(intent) && !IsComplete(intent.value) ==> o == Output(s, StopSelfIfIdle(s))
    ensures IsSendBulk(intent) && IsComplete(intent.value) ==>
              && Launched(o.effects) + o.state.queue == intent.value.numbers.value
              && o.state.message == intent.value.message
              && o.state.media == intent.value.media
    ensures IsSendBulk(intent) && IsComplete(intent.value) && s.processing ==>
              o.effects == [] && o.state.processing && o.state.current == None
    ensures IsSendBulk(intent) && IsComplete(intent.value) && !s.processing ==>
              var numbers := intent.value.numbers.value;
              && o.state.processing == (|numbers| > 0)
              && o.state.current == (if |numbers| == 0 then None else Some(numbers[0]))
              && |Launched(o.effects)| == (if |numbers| == 0 then 0 else 1)
              && (StopSelf in o.effects <==> |numbers| == 0)
              && (ScheduleNext(NextMessageDelayMs) in o.effects <==> |numbers| > 0 && !launchSucceeds)
    ensures IsSendBulk(intent) && IsComplete(intent.value) && !s.processing ==>
              var i := intent.value;
              var numbers := i.numbers.value;
              && (|numbers| == 0 ==> o.effects == [StopSelf])
              && (|numbers| > 0 ==>
                    o.effects == [Launch(numbers[0], i.message.value, i.media)] +
                                 (if launchSucceeds then [] else [ScheduleNext(NextMessageDelayMs)]))
  {
    if !IsSendBulk(intent) then Output(s, [])
    else
      var i := intent.value;
      if IsComplete(i) then
        var s' := s.(queue := i.numbers.value, message := i.message, media := i.media, current := None);
        if !s'.processing && |s'.queue| > 0 then ProcessNextMessage(s'.(processing := true), launchSucceeds)
        else if s'.processing then Output(s', [])
        else Output(s', StopSelfIfIdle(s'))
      else Output(s, StopSelfIfIdle(s))
  }

  /** The event is one the service reacts to: a WhatsApp window state or content change. */
  predicate IsWhatsAppWindowChange(e: UiEvent) {
    e.packageName == Some(WhatsAppPackage) &&
    (e.eventType == WindowStateChanged || e.eventType == WindowContentChanged)
  }

  /** All the guards of `onAccessibilityEvent` pass. */
  predicate Handles(s: State, event: Option<UiEvent>, root: Option<Nodes.Node>) {
    s.processing && s.current.Some? && event.Some? && IsWhatsAppWindowChange(event.value) && root.Some?
  }

  function SearchSendButton(root: Nodes.Node, lookup: Nodes.Lookup): Nodes.ClickResult {
    Nodes.ClickRun(Nodes.Concat(Nodes.CandidateGroups(root, lookup)))
  }

  /**
   `onAccessibilityEvent`: never changes the state; when every guard passes it
   searches for the send button, and a successful click posts exactly one
   `processNextMessage`.
   */
  function OnAccessibilityEvent(s: State, event: Option<UiEvent>, root: Option<Nodes.Node>, lookup: Nodes.Lookup)
    : (o: Output)
    ensures o.state == s
    ensures !Handles(s, event, root) ==> o.effects == []
    ensures Launched(o.effects) == []
    ensures Handles(s, event, root) ==>
              var r := SearchSendButton(root.value, lookup);
              && |r.attempts| <= |o.effects|
              && o.effects[..|r.attempts|] == Clicks(r.attempts)
              && (r.clicked ==> o.effects[|r.attempts|..] == [ScheduleNext(NextMessageDelayMs)])
              && (!r.clicked ==> |o.effects| == |r.attempts|)
  {
    if !s.processing || s.current.None? then Output(s, [])
    else if event.None? then Output(s, [])
    else if IsWhatsAppWindowChange(event.value) then
      if root.None? then Output(s, [])
      else
        var r := SearchSendButton(root.value, lookup);
        var next := if r.clicked then [ScheduleNext(NextMessageDelayMs)] else [];
        NoLaunchInClicks(r.attempts);
        LaunchedAppend(Clicks(r.attempts), next);
        assert Launched([ScheduleNext(NextMessageDelayMs)]) == [];
        Output(s, Clicks(r.attempts) + next)
    else Output(s, [])
  }

  /** One framework callback, dispatched to its handler. */
  function Step(s: State, e: Event): (o: Output)
    ensures e.Accessibility? ==> o.state == s && Launched(o.effects) == []
    ensures e.ProcessNext? || e.Accessibility? ==> o.state.message == s.message && o.state.media == s.media
    ensures e.Interrupt? ==> o == Output(s.(processing := false), [])
    ensures e.Destroy? ==> o == Output(s.(processing := false, queue := []), [])
    ensures StopSelf in o.effects ==> !o.state.processing && o.state.queue == []
  {
    match e
    case StartCommand(intent, ok) => OnStartCommand(s, intent, ok)
    case ProcessNext(ok) => ProcessNextMessage(s, ok)
    case Accessibility(event, root, lookup) => OnAccessibilityEvent(s, event, root, lookup)
    case Interrupt => Output(s.(processing := false), [])
    case Destroy => Output(s.(processing := false, queue := []), [])
  }

  /** `onInterrupt` clears only the processing flag; the queue, current number, message and media survive. */
  lemma InterruptKeepsQueue(s: State)
    ensures Step(s, Interrupt) == Output(s.(processing := false), [])
    ensures var o := Step(s, Interrupt);
            && !o.state.processing && o.state.queue == s.queue && o.state.current == s.current
            && o.state.message == s.message && o.state.media == s.media && o.effects == []
  {
  }

  /** `onDestroy` clears the processing flag and the queue and nothing else. */
  lemma DestroyClearsQueue(s: State)
    ensures Step(s, Destroy) == Output(s.(processing := false, queue := []), [])
    ensures var o := Step(s, Destroy);
            && !o.state.processing && o.state.queue == [] && o.state.current == s.current
            && o.state.message == s.message && o.state.media == s.media && o.effects == []
  {
  }

  /** A freshly created service has nothing in flight, so it ignores every accessibility event. */
  lemma InitialIgnoresEvents(event: Option<UiEvent>, root: Option<Nodes.Node>, lookup: Nodes.Lookup)
    ensures Step(Initial, Accessibility(event, root, lookup)) == Output(Initial, [])
  {
  }

  /** The service stops itself only when it is idle with an empty queue. */
  lemma StopSelfOnlyWhenIdle(s: State, e: Event)
    ensures StopSelf in Step(s, e).effects ==> !Step(s, e).state.processing && Step(s, e).state.queue == []
  {
  }

  /** Without a new start command, a step consumes at most the head of the queue and never adds to it. */
  lemma StepConsumesInOrder(s: State, e: Event)
    requires !e.StartCommand?
    ensures Launched(Step(s, e).effects) + Step(s, e).state.queue <= s.queue
    ensures |Launched(Step(s, e).effects)| <= 1
  {
    match e
    case ProcessNext(ok) =>
    case Accessibility(event, root, lookup) =>
    case Interrupt =>
    case Destroy =>
  }

  /** The service driven through a sequence of callbacks. */
  function Run(s: State, events: seq<Event>): Output
    decreases |events|
  {
    if |events| == 0 then Output(s, [])
    else
      var o := Step(s, events[0]);
      var rest := Run(o.state, events[1..]);
      Output(rest.state, o.effects + rest.effects)
  }

  predicate NoStartCommand(events: seq<Event>) {
    forall i :: 0 <= i < |events| ==> !events[i].StartCommand?
  }

  /**
   Until the next start command, numbers are launched strictly in queue
   order, each queue position at most once (a number queued twice is
   launched twice), and none is put back: the launched numbers followed by
   what is left form a prefix of the queue.
   */
  lemma {:induction false} RunConsumesInOrder(s: State, events: seq<Event>)
    requires NoStartCommand(events)
    ensures Launched(Run(s, events).effects) + Run(s, events).state.queue <= s.queue
    decreases |events|
  {
    if |events| > 0 {
      var o := Step(s, events[0]);
      var rest := Run(o.state, events[1..]);
      StepConsumesInOrder(s, events[0]);
      assert NoStartCommand(events[1..]) by {
        forall i | 0 <= i < |events[1..]|
          ensures !events[1..][i].StartCommand?
        {
          assert events[1..][i] == events[i + 1];
        }
      }
      RunConsumesInOrder(o.state, events[1..]);
      assert Run(s, events) == Output(rest.state, o.effects + rest.effects);
      ConsumedChain(o.effects, rest.effects, s.queue, o.state.queue, rest.state.queue);
    }
  }

  /** Two consecutive consuming stretches make one. */
  lemma ConsumedChain(first: seq<Effect>, second: seq<Effect>, q0: seq<string>, q1: seq<string>, q2: seq<string>)
    requires Launched(first) + q1 <= q0 && Launched(second) + q2 <= q1
    ensures Launched(first + second) + q2 <= q0
  {
    LaunchedAppend(first, second);
    var a := Launched(first);
    var b := Launched(second);
    PrefixCompose(a, b + q2, q1, q0);
    assert a + b + q2 == a + (b + q2);
  }

  lemma PrefixCompose<T>(a: seq<T>, x: seq<T>, y: seq<T>, q: seq<T>)
    requires x <= y && a + y <= q
    ensures a + x <= q
  {
    assert a + x == (a + y)[..|a| + |x|];
  }

  /** After a start command on an idle service, the first launch is the first number handed over. */
  lemma StartOnIdleLaunchesHead(s: State, numbers: seq<string>, message: string, media: Option<string>, ok: bool)
    requires !s.processing && |numbers| > 0
    ensures var o := Step(s, StartCommand(Some(Intent(Some(ActionSendBulk), Some(numbers), Some(message), media)), ok));
            && o.state.processing
            && o.state.current == Some(numbers[0])
            && o.state.queue == numbers[1..]
            && Launched(o.effects) == [numbers[0]]
            && o.effects[0] == Launch(numbers[0], message, media)
  {
  }

  /**
   A start command that arrives while a number is in flight replaces the
   queue and forgets the current number without dispatching, so every later
   accessibility event is ignored: only a `processNextMessage` already posted
   can move the queue again.
   */
  lemma {:induction false} BusyStartSilencesEvents(s: State, intent: Intent, ok: bool, events: seq<Event>)
    requires s.processing && IsSendBulk(Some(intent)) && IsComplete(intent)
    requires forall i :: 0 <= i < |events| ==> events[i].Accessibility?
    ensures var t := Step(s, StartCommand(Some(intent), ok)).state;
            Run(t, events) == Output(t, [])
    decreases |events|
  {
    var t := Step(s, StartCommand(Some(intent), ok)).state;
    if |events| > 0 {
      assert t.current == None;
      BusyStartSilencesEvents(s, intent, ok, events[1..]);
    }
  }

  /**
   End to end: whatever `sendMessage` hands to an idle service is launched
   starting with its first recipient, and the rest is queued in order.
   */
  lemma SendMessageStartsIdleService(s: State, enabled: bool, message: string, media: Option<string>,
                                     phoneNumbers: seq<string>, ok: bool)
    requires !s.processing
    ensures var job := Phone.SendMessage(enabled, message, media, phoneNumbers);
            job.QueueStarted? ==>
              var o := Step(s, StartCommand(Some(Intent(Some(ActionSendBulk), Some(job.numbers), Some(message), media)), ok));
              && o.state.processing
              && Launched(o.effects) == [Phone.Recipients(phoneNumbers)[0]]
              && o.state.queue == Phone.Recipients(phoneNumbers)[1..]
  {
    var job := Phone.SendMessage(enabled, message, media, phoneNumbers);
    if job.QueueStarted? {
      StartOnIdleLaunchesHead(s, job.numbers, message, media, ok);
    }
  }
}

=== FILE: store.dfy ===
/**
 The Room database behind BroadcastDao as three in-memory tables: broadcast
 lists keyed by an auto-generated id, contacts keyed by phone number, and the
 list/contact cross references keyed by the pair. Every insert has REPLACE
 conflict semantics; `lastId` is the AUTOINCREMENT counter, the largest list
 id ever issued, so ids of deleted lists are never handed out again.
 */
module Store {
  import opened Common

  datatype BroadcastList = BroadcastList(id: int, name: string, iconEmoji: string)

  datatype Contact = Contact(phoneNumber: string, name: string)

  datatype CrossRef = CrossRef(listId: int, contactPhoneNumber: string)

  /** A list row together with the contacts its cross references reach. */
  datatype ListWithContacts = ListWithContacts(list: BroadcastList, contacts: set<Contact>)

  datatype Db = Db(
    lists: map<int, BroadcastList>,
    contacts: map<string, Contact>,
    crossRefs: set<CrossRef>,
    lastId: int)

  const Empty: Db := Db(map[], map[], {}, 0)

  /** Rows sit under their own primary key and no list id exceeds the counter. */
  predicate Wf(db: Db) {
    && (forall id :: id in db.lists ==> db.lists[id].id == id && id <= db.lastId)
    && (forall p :: p in db.contacts ==> db.contacts[p].phoneNumber == p)
  }

  /** No cross reference names a list id that has not been issued yet. */
  predicate NoFutureRefs(db: Db) {
    forall r :: r in db.crossRefs ==> r.listId <= db.lastId
  }

  /* ---------------------------------------------------------------------
     Queries
     --------------------------------------------------------------------- */

  function Phones(cs: seq<Contact>): set<string> {
    set c | c in cs :: c.phoneNumber
  }

  /** The cross-reference rows of one list. */
  function RefsOf(db: Db, listId: int): set<CrossRef> {
    set r | r in db.crossRefs && r.listId == listId
  }

  /** Phone numbers joined to a list by the cross-reference table. */
  function Members(db: Db, listId: int): (m: set<string>)
    ensures forall p :: p in m <==> CrossRef(listId, p) in db.crossRefs
  {
    set r | r in db.crossRefs && r.listId == listId :: r.contactPhoneNumber
  }

  /**
   The `@Relation` through the junction: stored contacts whose phone has a
   cross reference for the list, joining on the junction's `listId` and
   `contactPhoneNumber` columns.
   */
  function ContactsOf(db: Db, listId: int): (cs: set<Contact>)
    ensures forall c :: c in cs <==> exists p :: p in db.contacts && db.contacts[p] == c && p in Members(db, listId)
  {
    set p | p in db.contacts && CrossRef(listId, p) in db.crossRefs :: db.contacts[p]
  }

  /** `getBroadcastListWithContacts`: the list row and its contacts, or nothing for an unknown id. */
  function GetBroadcastListWithContacts(db: Db, listId: int): (r: Option<ListWithContacts>)
    ensures r.Some? <==> listId in db.lists
    ensures r.Some? ==> r.value.list == db.lists[listId]
    ensures r.Some? && Wf(db) ==>
              forall c :: c in r.value.contacts <==>
                c.phoneNumber in db.contacts && db.contacts[c.phoneNumber] == c && c.phoneNumber in Members(db, listId)
  {
    if listId in db.lists then Some(ListWithContacts(db.lists[listId], ContactsOf(db, listId))) else None
  }

  /** `getAllBroadcastListsWithContacts` (and its Flow variant): one entry per list row. */
  function GetAllBroadcastListsWithContacts(db: Db): (r: set<ListWithContacts>)
    ensures forall x :: x in r ==> exists id :: id in db.lists && x == ListWithContacts(db.lists[id], ContactsOf(db, id))
    ensures forall id :: id in db.lists ==> ListWithContacts(db.lists[id], ContactsOf(db, id)) in r
  {
    set id | id in db.lists :: ListWithContacts(db.lists[id], ContactsOf(db, id))
  }

  /* ---------------------------------------------------------------------
     Inserts (REPLACE on conflict)
     --------------------------------------------------------------------- */

  datatype Inserted = Inserted(db: Db, id: int)

  /**
   `insertBroadcastList`: an id of 0 means "not set" and takes the next
   counter value; an explicit id replaces the row under that id. Returns the
   row id.
   */
  function InsertBroadcastList(db: Db, list: BroadcastList): (r: Inserted)
    ensures r.id in r.db.lists && r.db.lists[r.id] == list.(id := r.id)
    ensures list.id != 0 ==> r.id == list.id
    ensures list.id == 0 ==> r.id > db.lastId && (Wf(db) ==> r.id !in db.lists)
    ensures forall k :: k != r.id ==> (k in r.db.lists <==> k in db.lists)
    ensures forall k :: k != r.id && k in db.lists ==> r.db.lists[k] == db.lists[k]
    ensures r.db.contacts == db.contacts && r.db.crossRefs == db.crossRefs
    ensures r.db.lastId >= db.lastId
    ensures Wf(db) ==> Wf(r.db)
    ensures NoFutureRefs(db) ==> NoFutureRefs(r.db)
  {
    if list.id == 0 then
      var id := db.lastId + 1;
      Inserted(db.(lists := db.lists[id := list.(id := id)], lastId := id), id)
    else
      Inserted(db.(lists := db.lists[list.id := list], lastId := if list.id > db.lastId then list.id else db.lastId),
               list.id)
  }

  /** `insertContact`: upsert keyed by phone number. */
  function InsertContact(db: Db, c: Contact): (r: Db)
    ensures r.contacts.Keys == db.contacts.Keys + {c.phoneNumber}
    ensures r.contacts[c.phoneNumber] == c
    ensures forall p :: p in db.contacts && p != c.phoneNumber ==> r.contacts[p] == db.contacts[p]
    ensures r.lists == db.lists && r.crossRefs == db.crossRefs && r.lastId == db.lastId
    ensures Wf(db) ==> Wf(r)
  {
    db.(contacts := db.contacts[c.phoneNumber := c])
  }

  /** The last contact of `cs` carrying phone `p`. */
  function Latest(cs: seq<Contact>, p: string): (c: Contact)
    requires p in Phones(cs)
    ensures c in cs && c.phoneNumber == p
    decreases |cs|
  {
    var last := cs[|cs| - 1];
    if last.phoneNumber == p then last
    else
      assert cs == cs[..|cs| - 1] + [last];
      assert p in Phones(cs[..|cs| - 1]) by {
        var c :| c in cs && c.phoneNumber == p;
        assert c in cs[..|cs| - 1];
      }
      Latest(cs[..|cs| - 1], p)
  }

  /** `insertContacts`: one upsert per contact, in list order, so the last contact with a phone wins. */
  function InsertContacts(db: Db, cs: seq<Contact>): (r: Db)
    ensures r.contacts.Keys == db.contacts.Keys + Phones(cs)
    ensures forall p :: p in Phones(cs) ==> r.contacts[p] == Latest(cs, p)
    ensures forall p :: p in db.contacts && p !in Phones(cs) ==> p in r.contacts && r.contacts[p] == db.contacts[p]
    ensures r.lists == db.lists && r.crossRefs == db.crossRefs && r.lastId == db.lastId
    ensures Wf(db) ==> Wf(r)
    decreases |cs|
  {
    if |cs| == 0 then db
    else
      var init := cs[..|cs| - 1];
      var last := cs[|cs| - 1];
      assert cs == init + [last];
      assert Phones(cs) == Phones(init) + {last.phoneNumber};
      InsertContact(InsertContacts(db, init), last)
  }

  /** `insertBroadcastListContactCrossRef`: the table is a set of pairs. */
  function InsertCrossRef(db: Db, ref: CrossRef): (r: Db)
    ensures r.crossRefs == db.crossRefs + {ref}
    ensures r.lists == db.lists && r.contacts == db.contacts && r.lastId == db.lastId
  {
    db.(crossRefs := db.crossRefs + {ref})
  }

  /** `insertBroadcastListContactCrossRefs`. */
  function InsertCrossRefs(db: Db, refs: seq<CrossRef>): (r: Db)
    ensures forall x :: x in r.crossRefs <==> x in db.crossRefs || x in refs
    ensures r.lists == db.lists && r.contacts == db.contacts && r.lastId == db.lastId
  {
    db.(crossRefs := db.crossRefs + set x | x in refs)
  }

  /** Re-inserting a pair that is already present changes nothing. */
  lemma InsertCrossRefIdempotent(db: Db, ref: CrossRef)
    ensures InsertCrossRef(InsertCrossRef(db, ref), ref) == InsertCrossRef(db, ref)
    ensures ref in db.crossRefs ==> InsertCrossRef(db, ref) == db
  {
  }

  /* ---------------------------------------------------------------------
     Update and deletes
     --------------------------------------------------------------------- */

  /** `@Update`: rewrites the row with the same id; an unknown id updates nothing. */
  function UpdateBroadcastList(db: Db, list: BroadcastList): (r: Db)
    ensures list.id in db.lists ==> r.lists == db.lists[list.id := list]
    ensures list.id !in db.lists ==> r == db
    ensures r.contacts == db.contacts && r.crossRefs == db.crossRefs && r.lastId == db.lastId
    ensures Wf(db) ==> Wf(r)
  {
    if list.id in db.lists then db.(lists := db.lists[list.id := list]) else db
  }

  /** `deleteBroadcastListById`: removes the row only; its cross references stay behind. */
  function DeleteBroadcastListById(db: Db, listId: int): (r: Db)
    ensures r.lists.Keys == db.lists.Keys - {listId}
    ensures forall k :: k in r.lists ==> r.lists[k] == db.lists[k]
    ensures r.contacts == db.contacts && r.crossRefs == db.crossRefs && r.lastId == db.lastId
    ensures Wf(db) ==> Wf(r)
  {
    db.(lists := db.lists - {listId})
  }

  /** `deleteCrossRefsByListId`. */
  function DeleteCrossRefsByListId(db: Db, listId: int): (r: Db)
    ensures forall x :: x in r.crossRefs <==> x in db.crossRefs && x.listId != listId
    ensures r.lists == db.lists && r.contacts == db.contacts && r.lastId == db.lastId
  {
    db.(crossRefs := set x | x in db.crossRefs && x.listId != listId)
  }

  /** `clearAllBroadcastLists`: the counter is kept, as `DELETE` leaves `sqlite_sequence` alone. */
  function ClearAllBroadcastLists(db: Db): (r: Db)
    ensures r.lists == map[] && r.contacts == db.contacts && r.crossRefs == db.crossRefs && r.lastId == db.lastId
  {
    db.(lists := map[])
  }

  function ClearAllContacts(db: Db): (r: Db)
    ensures r.contacts == map[] && r.lists == db.lists && r.crossRefs == db.crossRefs && r.lastId == db.lastId
  {
    db.(contacts := map[])
  }

  function ClearAllBroadcastListContactCrossRefs(db: Db): (r: Db)
    ensures r.crossRefs == {} && r.lists == db.lists && r.contacts == db.contacts && r.lastId == db.lastId
  {
    db.(crossRefs := {})
  }

  /* ---------------------------------------------------------------------
     The membership-replacing transaction
     --------------------------------------------------------------------- */

  function RefsFor(listId: int, cs: seq<Contact>): (refs: seq<CrossRef>)
    ensures |refs| == |cs|
    ensures forall i :: 0 <= i < |cs| ==> refs[i] == CrossRef(listId, cs[i].phoneNumber)
  {
    seq(|cs|, i requires 0 <= i < |cs| => CrossRef(listId, cs[i].phoneNumber))
  }

  /** The cross references built for `listId` from `cs` are one row per distinct phone. */
  lemma RefsForMembers(listId: int, cs: seq<Contact>, x: CrossRef)
    ensures x in RefsFor(listId, cs) <==> x.listId == listId && x.contactPhoneNumber in Phones(cs)
  {
    var refs := RefsFor(listId, cs);
    if x.listId == listId && x.contactPhoneNumber in Phones(cs) {
      var c :| c in cs && c.phoneNumber == x.contactPhoneNumber;
      var i :| 0 <= i < |cs| && cs[i] == c;
      assert refs[i] == x;
    }
  }

  /** Deleting a list's cross references and inserting fresh ones leaves exactly one row per given phone. */
  lemma ReplaceRefs(d: Db, listId: int, cs: seq<Contact>)
    ensures var r := InsertCrossRefs(DeleteCrossRefsByListId(d, listId), RefsFor(listId, cs));
            && RefsOf(r, listId) == (set p | p in Phones(cs) :: CrossRef(listId, p))
            && Members(r, listId) == Phones(cs)
            && (forall k :: k != listId ==> RefsOf(r, k) == RefsOf(d, k))
  {
    var r := InsertCrossRefs(DeleteCrossRefsByListId(d, listId), RefsFor(listId, cs));
    forall x | x in r.crossRefs && x.listId == listId
      ensures x.contactPhoneNumber in Phones(cs)
    {
      RefsForMembers(listId, cs, x);
    }
    forall p | p in Phones(cs)
      ensures CrossRef(listId, p) in r.crossRefs
    {
      RefsForMembers(listId, cs, CrossRef(listId, p));
    }
    forall x | x in r.crossRefs && x.listId != listId
      ensures x in d.crossRefs
    {
      RefsForMembers(listId, cs, x);
    }
  }

  /**
   `updateBroadcastListWithContacts`: rewrite the row, upsert the contacts,
   drop the list's cross references and insert one per given contact.
   */
  function UpdateBroadcastListWithContacts(db: Db, list: BroadcastList, cs: seq<Contact>): (r: Db)
    ensures Members(r, list.id) == Phones(cs)
    ensures RefsOf(r, list.id) == set p | p in Phones(cs) :: CrossRef(list.id, p)
    ensures forall k :: k != list.id ==> RefsOf(r, k) == RefsOf(db, k)
    ensures list.id in db.lists ==> r.lists == db.lists[list.id := list]
    ensures list.id !in db.lists ==> r.lists == db.lists
    ensures r.contacts.Keys == db.contacts.Keys + Phones(cs)
    ensures forall p :: p in Phones(cs) ==> p in r.contacts && r.contacts[p] == Latest(cs, p)
    ensures forall p :: p in db.contacts && p !in Phones(cs) ==> p in r.contacts && r.contacts[p] == db.contacts[p]
    ensures r.lastId == db.lastId
    ensures Wf(db) ==> Wf(r)
    ensures NoFutureRefs(db) && list.id <= db.lastId ==> NoFutureRefs(r)
  {
    var d2 := InsertContacts(UpdateBroadcastList(db, list), cs);
    ReplaceRefs(d2, list.id, cs);
    InsertCrossRefs(DeleteCrossRefsByListId(d2, list.id), RefsFor(list.id, cs))
  }

  /* ---------------------------------------------------------------------
     Properties of the tables
     --------------------------------------------------------------------- */

  /** Each clear keeps the remaining rows under their own keys. */
  lemma ClearsPreserveWf(db: Db)
    requires Wf(db)
    ensures Wf(ClearAllBroadcastLists(db)) && Wf(ClearAllContacts(db)) && Wf(ClearAllBroadcastListContactCrossRefs(db))
  {
  }

  /** A list inserted with id 0 gets a fresh id and is found again under it, with its name and emoji. */
  lemma InsertThenGet(db: Db, name: string, emoji: string)
    requires Wf(db) && NoFutureRefs(db)
    ensures var ins := InsertBroadcastList(db, BroadcastList(0, name, emoji));
            && ins.id !in db.lists
            && GetBroadcastListWithContacts(ins.db, ins.id) ==
                 Some(ListWithContacts(BroadcastList(ins.id, name, emoji), {}))
  {
    var ins := InsertBroadcastList(db, BroadcastList(0, name, emoji));
    assert Members(ins.db, ins.id) == {};
    assert ContactsOf(ins.db, ins.id) == {};
  }

  /** Inserting two contacts with the same number keeps the later one. */
  lemma ContactUpsert(db: Db, a: Contact, b: Contact)
    requires a.phoneNumber == b.phoneNumber
    ensures InsertContact(InsertContact(db, a), b) == InsertContact(db, b)
  {
  }

  /** After a delete the list is gone from every query, its cross references stay, and other lists remain. */
  lemma DeleteThenQuery(db: Db, listId: int)
    requires Wf(db)
    ensures var r := DeleteBroadcastListById(db, listId);
            && GetBroadcastListWithContacts(r, listId) == None
            && (forall x :: x in GetAllBroadcastListsWithContacts(r) ==> x.list.id != listId)
            && (forall k :: k != listId ==> GetBroadcastListWithContacts(r, k) == GetBroadcastListWithContacts(db, k))
            && Members(r, listId) == Members(db, listId)
  {
    var r := DeleteBroadcastListById(db, listId);
    forall x | x in GetAllBroadcastListsWithContacts(r)
      ensures x.list.id != listId
    {
      var id :| id in r.lists && x == ListWithContacts(r.lists[id], ContactsOf(r, id));
    }
    forall k | k != listId
      ensures GetBroadcastListWithContacts(r, k) == GetBroadcastListWithContacts(db, k)
    {
      assert ContactsOf(r, k) == ContactsOf(db, k);
    }
  }

  /** Ids are never reused, so a freshly issued id has no stale cross references. */
  lemma FreshIdHasNoMembers(db: Db)
    requires NoFutureRefs(db)
    ensures Members(db, db.lastId + 1) == {}
  {
  }

  /** A new list joined to two stored contacts reads back with exactly those two contacts. */
  lemma TwoContactExample(name: string, emoji: string, john: Contact, jane: Contact)
    requires john.phoneNumber != jane.phoneNumber
    ensures var ins := InsertBroadcastList(Empty, BroadcastList(0, name, emoji));
            var d := InsertCrossRefs(InsertContacts(ins.db, [john, jane]), RefsFor(ins.id, [john, jane]));
            GetBroadcastListWithContacts(d, ins.id) == Some(ListWithContacts(BroadcastList(ins.id, name, emoji), {john, jane}))
  {
    var ins := InsertBroadcastList(Empty, BroadcastList(0, name, emoji));
    var cs := [john, jane];
    var d := InsertCrossRefs(InsertContacts(ins.db, cs), RefsFor(ins.id, cs));
    assert Phones(cs) == {john.phoneNumber, jane.phoneNumber};
    assert Latest(cs, john.phoneNumber) == john;
    assert Latest(cs, jane.phoneNumber) == jane;
    forall x
      ensures x in RefsFor(ins.id, cs) <==> x.listId == ins.id && x.contactPhoneNumber in Phones(cs)
    {
      RefsForMembers(ins.id, cs, x);
    }
    assert Members(d, ins.id) == Phones(cs);
    assert ContactsOf(d, ins.id) == {john, jane};
  }
}
